=== FILE: README.md ===
# AudiobookGenerator, modelled in Dafny

This project models `AudiobookGenerator`, the class that turns a plain-text
document into one narrated WAV file. The class ships twice, as
`App/modules/AudiobookGenerator.py` and `Application/modules/AudiobookGenerator.py`.
The two copies are identical, so the model follows the first.

A run (`start`) goes through four stages in a fixed order:

- `clear` rebuilds `<output_folder>/output` and its `slices` folder.
- `load_file` reads the document and splits it into paragraphs at line feeds.
- `generate_audio` writes one slice `slices/<i>.wav` per paragraph. Text goes
  to the TTS engine; an empty paragraph gets one second of silence. Every
  slice is re-encoded as 16-bit PCM.
- `merge_audio` concatenates the slices into `audiobook.wav`.

A stage that fails goes through `change_status`. It records an error status,
raises `finish` and returns 1, and `start` returns that 1 at once.
`generate_audio` and `merge_audio` never return anything but 0: their
failures are exceptions that escape `start` and leave `finish` false.
A polling caller reads `progress` and `summary`.

The model is functional. The generator's mutable fields become an immutable
`Job` record. The filesystem is an abstract `Disk`: the folders and audio
files of the output tree, the nodes on which every operation fails, and the
readable documents, which lie outside the output tree. The TTS engine is an `Engine` value: the languages it has
a voice for, a speech function, and the sample conversion used when
re-encoding. Each stage is a pure function returning a `Step`. A `Step` is
either `Done` (the returned integer) or `Raised` (an exception escaped); both
carry the job and disk reached so far. The clock is two integer readings
passed to `Start`.

Modules, one per file:

- `Wrappers`: `Option`, `Result`.
- `Text`: `str.split`/`str.join` with a one-character separator,
  universal-newline translation, `posixpath.join`.
- `Sound`: audio records, `create_silent_file`, `resample_file`, the engine.
- `Files`: the abstract disk, `rmtree`, `makedirs`, reading and writing audio
  files, the `OSError` texts.
- `Jobs`: the job record, `change_status`.
- `Preparation`: `clear`, `load_file`.
- `Synthesis`: `generate_audio`.
- `Merger`: `merge_audio`, with a reference definition of the merged frames,
  the writer's adopted parameters and its header.
- `Pipeline`: `start`.
- `Reporting`: `progress`, `summary`, and what a caller reads once `start`
  has ended.

Behaviour of the code worth knowing, modelled as written:

- Removing a missing output folder is an error. On a first run, `clear`
  therefore fails with the "No such file or directory" error and returns 1
  (`Pipeline.RemovalFails`).
- `open(..., 'r')` translates `\r\n` and `\r` to `\n` before the split. A
  CRLF or CR document therefore splits like its LF form, and no paragraph
  holds a carriage return.
- Re-encoding keeps the channel count and rate the file had and sets the
  sample width to 2 bytes. The silent slices are mono at 44100 Hz by
  construction; spoken slices have the engine's channels and rate.
- The audiobook's header holds the format of slice 0. The wave writer
  commits its header at the first `writeframes` call, which is slice 0's
  iteration, and later patches only the lengths. Its in-memory parameters
  are re-adopted from each slice while no frame has been written, so they
  end as the format of the first slice with frames (`Merger.MergeAllSpec`,
  `Merger.HeaderKeepsFirstRate`).
- A failed read or write in `merge_audio` raises an exception. It is not a
  returned error.

## Model

| member | source | states |
|---|---|---|
| Jobs.NewJob | App/modules/AudiobookGenerator.py:11-24 | a new generator stores its input file, output folder and language, is unfinished, has an empty status, no paragraphs, zero counters and no timestamps |
| Jobs.ChangeStatus | App/modules/AudiobookGenerator.py:83-89 | the status becomes the given text and `finish` becomes true; no other field changes; the return value is 1 |
| Jobs.ErrorIsNotSuccess | App/modules/AudiobookGenerator.py:39-41 | an error status, which starts with "Error", is never the success text |
| Text.Split | App/modules/AudiobookGenerator.py:72 | splitting yields at least one piece, and no piece holds the separator |
| Text.SplitCount | App/modules/AudiobookGenerator.py:72-73 | the number of pieces is the number of separators plus one |
| Text.JoinSplit | App/modules/AudiobookGenerator.py:72 | joining the pieces with the separator gives back the text |
| Text.SplitJoin | App/modules/AudiobookGenerator.py:72 | splitting the join of separator-free pieces gives back those pieces |
| Text.SplitWithoutSeparator | App/modules/AudiobookGenerator.py:72 | a text without the separator is a single piece |
| Text.SplitAfterHead | App/modules/AudiobookGenerator.py:72 | a separator-free head followed by the separator is the first piece, and the rest splits on its own |
| Text.UniversalNewlines | App/modules/AudiobookGenerator.py:70-71 | text read in text mode holds no carriage return; a text without one is unchanged; translation never lengthens the text |
| Text.TranslatePlain | App/modules/AudiobookGenerator.py:70-71 | text without a carriage return passes through the translation unchanged, whatever follows it |
| Text.TranslateCrLf | App/modules/AudiobookGenerator.py:70-71 | lines ended with "\r\n" read back as the same lines joined with "\n" |
| Text.TranslateCr | App/modules/AudiobookGenerator.py:70-71 | lines ended with a lone "\r" read back as the same lines joined with "\n" |
| Text.LoneCr | App/modules/AudiobookGenerator.py:70-71 | a carriage return not followed by a line feed becomes one line feed, whatever comes after it |
| Text.CrAfterLine | App/modules/AudiobookGenerator.py:70-71 | a line, a carriage return and text without a line feed read back as the line, a line feed and the translated text |
| Text.JoinFree | App/modules/AudiobookGenerator.py:72 | joining pieces free of a character with a separator free of it gives a text free of it |
| Text.PathJoin | App/modules/AudiobookGenerator.py:47-48 | an absolute second part replaces the first; otherwise the result starts with the first part and ends with the second |
| Text.PathJoinSeparator | App/modules/AudiobookGenerator.py:47-48 | for a relative second part, `posixpath.join` concatenates after an empty or slash-ended first part, and otherwise inserts exactly one '/' between them |
| Sound.SilentFile | App/modules/AudiobookGenerator.py:91-105 | a silent file of a whole number of seconds is mono, 2 bytes per sample, 44100 Hz, and holds `44100 * duration` frames, all zero |
| Sound.Resample | App/modules/AudiobookGenerator.py:107-113 | re-encoding keeps the channels, the rate and the frame count, sets the width to 2, and keeps silent samples silent |
| Sound.SilentSecond | App/modules/AudiobookGenerator.py:129-131 | a one-second silent slice is 44100 zero frames and is unchanged by re-encoding |
| Files.Describe | App/modules/AudiobookGenerator.py:54 | `str(e)` of an error carrying a path holds the quoted path; a fault's text is its own cause |
| Files.DescribeErrno | App/modules/AudiobookGenerator.py:54 | a missing path is errno 2, a file in the way of a folder errno 20, an existing folder errno 17 |
| Files.ErrnoText | App/modules/AudiobookGenerator.py:54 | the text of an `OSError` opens with `[Errno <n>] ` and holds the quoted path |
| Files.RemoveOutput | App/modules/AudiobookGenerator.py:51-52 | `shutil.rmtree` succeeds exactly when `<out>/output` is a non-faulty folder, and then no node of the tree remains while faults and documents are kept; a missing folder gives the "No such file" error for the path |
| Files.MakeDir | App/modules/AudiobookGenerator.py:58-59 | `os.makedirs` of one folder succeeds exactly when the node is neither faulty nor present, and then adds only that folder; an existing node gives the "File exists" error |
| Files.Write | App/modules/AudiobookGenerator.py:127-128 | a write succeeds exactly when the node is not faulty, not a folder and its folder exists, and then sets only that file |
| Files.WriteKeepsOthers | App/modules/AudiobookGenerator.py:127-128 | a write sets the written file and keeps every other file, present or absent, as it was |
| Files.Read | App/modules/AudiobookGenerator.py:146-149 | a read succeeds exactly when the file exists and is not faulty, and yields its contents |
| Files.ReadAfterWrite | App/modules/AudiobookGenerator.py:146-149 | what is written reads back unchanged, and other nodes read as before |
| Preparation.CleanError | App/modules/AudiobookGenerator.py:53-54 | the removal error text opens with the fixed prefix naming `<out>/output`, ends with the error's own text, and is an error text |
| Preparation.CreateError | App/modules/AudiobookGenerator.py:60-61 | the creation error text opens with the fixed prefix naming `<out>/output`, ends with the error's own text, and is an error text |
| Preparation.FolderError | App/modules/AudiobookGenerator.py:54 | the folder error text opens with its lead and the quoted path and ends with the cause |
| Preparation.Clear | App/modules/AudiobookGenerator.py:43-63 | `clear` returns 0 exactly when the output folder exists as a folder and neither folder is faulty, and the tree then holds the two folders and no file; otherwise it returns 1 with an error status, `finish` raised and no other job field changed; a failed removal commits the cleaning error naming `<out>/output`, creates nothing and leaves the disk as it was; a failed creation commits the creation error naming `<out>/output` and leaves the tree emptied, with no file and no `slices` folder |
| Preparation.Rebuild | App/modules/AudiobookGenerator.py:56-63 | on the emptied tree, creating the two folders succeeds exactly when neither is faulty, and then leaves exactly those folders; otherwise the creation error naming `<out>/output` is committed with `finish` raised, and the tree holds no file and no `slices` folder |
| Preparation.LoadFile | App/modules/AudiobookGenerator.py:65-81 | `load_file` returns 0 exactly when the document decodes; the paragraphs then number the line feeds plus one, join back to the text and hold no line break; otherwise it returns 1 with an error status and `finish` raised; a missing file's status names the path, an undecodable file's names the path and `utf-8`, and any other failure's is `Error: ` followed by the exception's text |
| Preparation.NotFoundError | App/modules/AudiobookGenerator.py:74-75 | the missing-file status is an error text naming the path |
| Preparation.DecodeError | App/modules/AudiobookGenerator.py:76-77 | the decode-failure status is an error text naming the path and the `utf-8` encoding |
| Preparation.ReadError | App/modules/AudiobookGenerator.py:78-79 | any other read failure's status opens with `Error: ` and ends with the exception's own text |
| Preparation.ParagraphFacts | App/modules/AudiobookGenerator.py:72-73 | a document's paragraphs number its line feeds plus one, join back to the translated text and hold no line break |
| Preparation.CarriageReturnFree | App/modules/AudiobookGenerator.py:70-72 | a piece of a text free of carriage returns is free of them too |
| Preparation.EmptyDocument | App/modules/AudiobookGenerator.py:72-73 | an empty document gives exactly one, empty, paragraph |
| Preparation.CrLfDocument | App/modules/AudiobookGenerator.py:70-72 | a document with Windows line endings has exactly its lines as paragraphs |
| Preparation.CrDocument | App/modules/AudiobookGenerator.py:70-72 | a document whose lines end in lone carriage returns has exactly its lines as paragraphs |
| Synthesis.SliceFor | App/modules/AudiobookGenerator.py:125-131 | an empty paragraph gives one second of silence; a slice is produced exactly when the paragraph is empty or the engine speaks it; every slice is 16-bit; a spoken paragraph's slice is the engine's speech re-encoded: its channels and rate, width 2, as many frames, and its silent samples kept silent |
| Synthesis.GenerateAudio | App/modules/AudiobookGenerator.py:115-134 | `generate_audio` only ever returns 0; a language without a voice raises before anything changes |
| Synthesis.SynthesizeOneSpec | App/modules/AudiobookGenerator.py:124-132 | one iteration completes exactly when its paragraph exists, can be voiced and its file can be written; it then adds that slice, sets the counter to `i + 1` and changes nothing else; otherwise it raises with the state unchanged |
| Synthesis.SynthesizeRangeDone | App/modules/AudiobookGenerator.py:123-132 | the first `k` iterations complete exactly when each can, and they then leave `processed == k` |
| Synthesis.SynthesizeRangeDisk | App/modules/AudiobookGenerator.py:123-132 | after `k` iterations the files are slices `0 .. k-1` of this run plus everything that was there before, and no folder, fault or document changed |
| Synthesis.ExtendSlices | App/modules/AudiobookGenerator.py:124-127 | writing slice `k` over the first `k` slices gives the first `k + 1` |
| Synthesis.SynthesizeRangeKeepsJob | App/modules/AudiobookGenerator.py:132 | the loop changes no field of the job but `processed` |
| Synthesis.KeepsText | App/modules/AudiobookGenerator.py:125-127 | the loop keeps the paragraphs and the language it speaks them in |
| Synthesis.ProcessedMonotone | App/modules/AudiobookGenerator.py:132 | when the loop gets to `k2`, it passed each earlier `k1` with `processed == k1`, so the counter rises in order and never passes `total` |
| Synthesis.GenerateAudioSpec | App/modules/AudiobookGenerator.py:115-134 | `generate_audio` completes exactly when the language has a voice and every iteration can complete; then `processed == total`, every slice exists and is 16-bit, and an empty paragraph's slice is exactly 44100 zero frames, mono at 44100 Hz |
| Synthesis.SpeechOnlyForText | App/modules/AudiobookGenerator.py:125-131 | only non-empty paragraphs reach the engine: two engines that agree on them give the same loop |
| Synthesis.SpeechAgrees | App/modules/AudiobookGenerator.py:125-127 | engines that say the same for the non-empty paragraphs make the same slices |
| Synthesis.SameSlicesSameRange | App/modules/AudiobookGenerator.py:123-132 | engines that make the same slices run the loop alike |
| Synthesis.SameSliceSameStep | App/modules/AudiobookGenerator.py:124-132 | engines that make the same slice for a paragraph take the same iteration |
| Merger.Append | App/modules/AudiobookGenerator.py:147-149 | appending a slice adds its frames at the end and adopts its format exactly while no frame has been written; the first write commits the header with the parameters then set, and later writes keep it |
| Merger.FramesLength | App/modules/AudiobookGenerator.py:149 | the merged frame count is the sum of the slices' frame counts |
| Merger.FramesSnoc | App/modules/AudiobookGenerator.py:149 | one more slice adds its frames at the end |
| Merger.AdoptedFormatSnoc | App/modules/AudiobookGenerator.py:147-148 | one more slice sets the format exactly when the slices before it had no frame |
| Merger.MergeAllSpec | App/modules/AudiobookGenerator.py:143-149 | the writer loop yields the slices' frames in order; its parameters end as the adopted format and its header as slice 0's format; it sets both exactly when there is a slice |
| Merger.AdoptedFormatIsFirstWithFrames | App/modules/AudiobookGenerator.py:147-148 | the format is that of the first slice with frames, or of the last slice when none has frames |
| Merger.AdoptedFormatIsOneOf | App/modules/AudiobookGenerator.py:147-148 | the adopted format is the format of one of the slices |
| Merger.UniformFormat | App/modules/AudiobookGenerator.py:147-148 | slices of one format give that format |
| Merger.HeaderAgreement | App/modules/AudiobookGenerator.py:147-149 | the header agrees with the writer's final parameters when the first slice has frames, is the only one, or all slices share one format |
| Merger.HeaderKeepsFirstRate | App/modules/AudiobookGenerator.py:147-149 | an empty 44100 Hz slice followed by a 16000 Hz one leaves the parameters at 16000 Hz and the header at 44100 Hz |
| Merger.ReadSlices | App/modules/AudiobookGenerator.py:144-146 | reading the first `k` slices yields `k` records when it succeeds |
| Merger.ReadSlicesSpec | App/modules/AudiobookGenerator.py:144-146 | reading succeeds exactly when every slice is readable, and yields the slices on disk in index order |
| Merger.MergeAudio | App/modules/AudiobookGenerator.py:136-151 | `merge_audio` only ever returns 0 and changes no job field; with no paragraph it raises |
| Merger.MergeAudioSpec | App/modules/AudiobookGenerator.py:136-151 | `merge_audio` completes exactly when there is a slice, the output can be written and every slice can be read; the output then holds the concatenated frames under slice 0's format, the one its header was written with, and no other node changes |
| Pipeline.RunStages | App/modules/AudiobookGenerator.py:33-37 | the stages run are a prefix of the order, all of them unless one stopped the run, and a returned stop carries a non-zero value |
| Pipeline.Start | App/modules/AudiobookGenerator.py:26-41 | `start` always ends with a return or an exception, after running a non-empty prefix of `clear, load_file, generate_audio, merge_audio` |
| Pipeline.FirstFailureStops | App/modules/AudiobookGenerator.py:33-37 | every stage before the last one run returned 0, and the last one returned the run's value, or raised, on the state they left |
| Pipeline.StageFacts | App/modules/AudiobookGenerator.py:35 | each stage's return value, flag and status agree: a non-zero return is 1 and comes from `clear` or `load_file` with an error status and `finish` raised; other outcomes leave the flag, status and timestamps alone |
| Pipeline.RunStagesVerdict | App/modules/AudiobookGenerator.py:33-37 | the run's flag, status and timestamps follow from the stage that stopped it |
| Pipeline.StartOutcome | App/modules/AudiobookGenerator.py:26-41 | `start` returns 0 or 1 exactly when `finish` is set; it returns 0 exactly with the success status, after all four stages and with the end time recorded; 1 comes from `clear` or `load_file` with an error status; an exception escapes from `generate_audio` or `merge_audio` with `finish` false; the start time is always recorded and the output folder is kept |
| Pipeline.RunStagesPass | App/modules/AudiobookGenerator.py:34-37 | a stage returning 0 hands its state to the next stages |
| Pipeline.RunStagesStop | App/modules/AudiobookGenerator.py:36-37 | a stage returning non-zero ends the run with that value |
| Pipeline.RunStagesRaise | App/modules/AudiobookGenerator.py:35 | a stage that raises ends the run |
| Pipeline.StageClear | App/modules/AudiobookGenerator.py:43-63 | `clear` as the first stage passes exactly when the tree can be rebuilt, and then leaves only the two folders |
| Pipeline.StageLoad | App/modules/AudiobookGenerator.py:65-81 | `load_file` as the second stage passes exactly when the document decodes, and records its paragraphs |
| Pipeline.StageGenerate | App/modules/AudiobookGenerator.py:115-134 | on a cleared tree, `generate_audio` passes exactly when the language has a voice and every paragraph can be voiced into a non-faulty file |
| Pipeline.StageMerge | App/modules/AudiobookGenerator.py:136-151 | with every slice written, `merge_audio` passes exactly when the output is not faulty, and writes the slices' frames in order under slice 0's format |
| Pipeline.TailRun | App/modules/AudiobookGenerator.py:115-151 | on a cleared tree, `generate_audio` then `merge_audio` pass exactly when there is a voice, the engine voices every paragraph and no slice or output file is faulty; they then leave every paragraph processed, the slices and the audiobook of their frames under slice 0's format, and nothing else |
| Pipeline.StartSuccess | App/modules/AudiobookGenerator.py:26-41 | `start` returns 0 exactly when every stage can succeed; the job then holds the paragraphs, all processed, with the success status and both timestamps; the tree holds only the slices of this run and an audiobook of their frames in order, 16-bit, under the first slice's format |
| Pipeline.StartSucceedsExactly | App/modules/AudiobookGenerator.py:26-41 | `start` returns 0 exactly when every stage can succeed |
| Pipeline.StartSuccessState | App/modules/AudiobookGenerator.py:26-41 | a successful `start` leaves the job and the output tree as `StartSuccess` describes |
| Pipeline.RemovalFails | App/modules/AudiobookGenerator.py:51-54 | when the old tree cannot be removed, a first run included, `start` returns 1 after `clear` alone, with the cleaning error committed and the disk untouched; a missing folder gives the "No such file" error |
| Pipeline.MissingVoice | App/modules/AudiobookGenerator.py:119-121 | a language without a voice makes `start` raise out of `generate_audio` with `finish` false, the tree freshly cleared and no merge |
| Pipeline.PassClear | App/modules/AudiobookGenerator.py:34-37 | on a disk `clear` can rebuild, the run passes `clear` and goes on from the cleared tree |
| Pipeline.PassLoad | App/modules/AudiobookGenerator.py:34-37 | with a document that decodes, the run passes `load_file` and goes on with the paragraphs loaded |
| Pipeline.ThroughLoad | App/modules/AudiobookGenerator.py:33-37 | with both, the first two stages pass and the run goes on from the cleared tree with the paragraphs loaded |
| Reporting.RoundHalfEven | App/modules/AudiobookGenerator.py:158 | the result is the nearest integer to the fraction, and a tie goes to the even one |
| Reporting.RoundHalfEvenUnique | App/modules/AudiobookGenerator.py:158 | that characterisation has exactly one solution |
| Reporting.RoundMonotone | App/modules/AudiobookGenerator.py:158 | rounding is monotone in the numerator |
| Reporting.RoundBounds | App/modules/AudiobookGenerator.py:158 | a fraction between 0 and 1 rounds to a percentage between 0 and 100 |
| Reporting.RoundsToHundred | App/modules/AudiobookGenerator.py:158-163 | a fraction whose rounding property holds of 100 rounds to 100, the value the 99 cap replaces |
| Reporting.Progress | App/modules/AudiobookGenerator.py:153-165 | 0 with no paragraphs; within 0..100 when `processed <= total`; 100 only once finished; 99 in place of a rounded 100 while the job is unfinished; the rounded percentage in every other case |
| Reporting.ProgressComplete | App/modules/AudiobookGenerator.py:162-165 | with every paragraph processed the percentage is 100 once finished and 99 before |
| Reporting.ProgressMonotone | App/modules/AudiobookGenerator.py:153-165 | more processed paragraphs, with a flag that stays raised, never lower the percentage |
| Reporting.ChangeStatusProgress | App/modules/AudiobookGenerator.py:162-165 | committing a status can only lift the 99 cap, leaving the rounded percentage |
| Reporting.CompletedSummary | App/modules/AudiobookGenerator.py:181-183 | the closing message names the path and the elapsed minutes |
| Reporting.Summary | App/modules/AudiobookGenerator.py:167-183 | the placeholder exactly while not finished; then the message naming `<out>/output/audiobook.wav` and the elapsed minutes, "0.0" when a timestamp is missing |
| Reporting.ReportAfterSuccess | App/modules/AudiobookGenerator.py:167-183 | after a successful `start` the percentage is 100 and the summary names the audiobook and the minutes between the two clock readings |
| Reporting.ReportAfterFailure | App/modules/AudiobookGenerator.py:174-183 | after `start` returns 1 on a job never run, the summary is the closing message with 0.0 minutes |
| Reporting.ReportAfterFirstFailure | App/modules/AudiobookGenerator.py:174-183 | a new generator whose first `start` returns 1 is finished and reports the closing message naming `<out>/output/audiobook.wav` with 0.0 minutes |
| Reporting.ReportAfterEscape | App/modules/AudiobookGenerator.py:171-172 | after an exception escapes `start`, the summary stays the placeholder and the percentage is never 100 |

## Left out

- The graphical front-end, its polling thread and `main.py` are not part of this model: they are widgets, dialogs and a sleep loop.
- The TTS engine's internals (`download`, `TTS`, `tts.synthesis`) are an abstract speech function and a set of voiced languages. A failing call is "no slice", which raises.
- The mapping from a language label to an engine language code is not part of this model.
- The real semantics of `shutil.rmtree`, `os.makedirs` and file handles are abstract. A fault on a node fails every operation on it, and partial failures deep inside a tree are not modelled.
- What a failed `merge_audio` leaves on disk is not modelled. The wave writer may have created a partial output file.
- The WAV byte layout is left out. The audiobook's format is the one its header is written with, slice 0's; how a player would reinterpret frames of another format under that header is not modelled.
- `print` calls are left out: they are console output only.
- The `OSError` texts quote the path plainly. Python's `repr` quoting of unusual paths is left out.
- Paths are POSIX paths, joined as `posixpath.join` does.
- The documents are assumed to lie outside `<output_folder>/output`: removing the output tree never touches the input file. An input file inside that tree would be deleted by `shutil.rmtree`, and `load_file` would then fail with the not-found error; that case is not modelled, and `Pipeline.StartSuccess` relies on the assumption.
- Sound.Resample: claims only the width, channels, rate, frame count and silent samples. It does not state libsndfile's exact sample scaling, which is a parameter of the engine.
- Sound.SilentFile: takes a whole number of seconds. A fractional duration, for which Python's float product `int(44100 * duration)` can differ from the exact one, is not modelled; the source only ever passes 1.
- Reporting.Progress: uses exact rational rounding. Floating-point artefacts of `processed / total * 100` are left out.
- Reporting.Summary: takes the elapsed-minutes text as a parameter. The `datetime` arithmetic and float formatting of `round(seconds / 60, 1)` are left out.
- The clock is two integer readings given to `Pipeline.Start`.
- Concurrency is left out: a caller reading `progress` while the worker runs, and torn reads of the fields.
- Audio samples are one integer per frame. Multi-channel interleaving is not modelled.

=== FILE: files.dfy ===
/** An abstract filesystem: the tree `<output_folder>/output` the
    generator rebuilds on every run, the documents it may read, and the
    operating-system errors the `shutil`, `os` and `wave` calls raise. */
module Files {
  import opened Wrappers
  import opened Sound
  import Text

  /** The nodes of `<output_folder>/output`: the folder itself, its
      `slices` sub-folder, the slice `slices/<index>.wav` and the merged
      `audiobook.wav`. */
  datatype Node = OutputDir | SlicesDir | SliceFile(index: nat) | ArtifactFile

  /** What opening and reading a document as UTF-8 text yields: a decode
      failure, some other failure with its message, or the decoded
      characters (before newline translation). */
  datatype Document = Undecodable | Unreadable(cause: string) | Decoded(text: string)

  /** The folders and audio files of the output tree, the nodes on which
      every operation fails with a given cause (permissions, a full
      disk, ...), and the readable documents keyed by path; a path
      absent from `documents` does not exist. The documents lie outside
      the output tree, so removing the tree leaves them. */
  datatype Disk = Disk(
    dirs: set<Node>,
    files: map<Node, Audio>,
    faults: map<Node, string>,
    documents: map<string, Document>)

  /** An `OSError` and the path it reports. */
  datatype OsError =
    | NoSuchFile(path: string)
    | NotADirectory(path: string)
    | FileExists(path: string)
    | Denied(cause: string)

  /** `str(e)` for an error `e`: the errno and its message, then the
      quoted path; a fault's own cause as it is. */
  function Describe(e: OsError): (t: string)
    ensures !e.Denied? ==> Text.Contains(t, "'" + e.path + "'")
    ensures e.Denied? ==> t == e.cause
  {
    match e
    case NoSuchFile(p) => ErrnoText("2", "No such file or directory", p)
    case NotADirectory(p) => ErrnoText("20", "Not a directory", p)
    case FileExists(p) => ErrnoText("17", "File exists", p)
    case Denied(cause) => cause
  }

  /** The errno each failure's text opens with. */
  lemma DescribeErrno(e: OsError)
    ensures e.NoSuchFile? ==> Text.StartsWith(Describe(e), "[Errno 2] ")
    ensures e.NotADirectory? ==> Text.StartsWith(Describe(e), "[Errno 20] ")
    ensures e.FileExists? ==> Text.StartsWith(Describe(e), "[Errno 17] ")
  {
  }

  /** `[Errno <errno>] <message>: '<path>'`, the text of an `OSError` that
      carries a path. */
  function ErrnoText(errno: string, message: string, path: string): (t: string)
    ensures Text.StartsWith(t, "[Errno " + errno + "] ")
    ensures Text.Contains(t, "'" + path + "'")
  {
    var head := "[Errno " + errno + "] ";
    var t := head + message + ": '" + path + "'";
    assert t == head + (message + ": " + ("'" + path + "'"));
    Text.PrefixOfConcat(head, head, message + ": " + ("'" + path + "'"));
    Text.ContainsMiddle(head + message + ": ", "'" + path + "'", "");
    assert head + message + ": " + ("'" + path + "'") + "" == t;
    t
  }

  /** `<output_folder>/output`. */
  function OutputPath(folder: string): string
  {
    Text.PathJoin(folder, "output")
  }

  /** `<output_folder>/output/slices`. */
  function SlicesPath(folder: string): string
  {
    Text.PathJoin(OutputPath(folder), "slices")
  }

  /** `<output_folder>/output/audiobook.wav`. */
  function ArtifactPath(folder: string): string
  {
    Text.PathJoin(OutputPath(folder), "audiobook.wav")
  }

  /** `shutil.rmtree(<output_folder>/output)`: fails when the folder is
      faulty, is a file, or does not exist; otherwise the whole output
      tree is gone. */
  function RemoveOutput(d: Disk, path: string): (r: Result<Disk, OsError>)
    ensures r.Ok? <==> OutputDir in d.dirs && OutputDir !in d.files && OutputDir !in d.faults
    ensures r.Ok? ==>
      r.value.dirs == {} && r.value.files == map[] && r.value.faults == d.faults && r.value.documents == d.documents
    ensures OutputDir !in d.faults && OutputDir !in d.files && OutputDir !in d.dirs ==> r == Err(NoSuchFile(path))
  {
    if OutputDir in d.faults then Err(Denied(d.faults[OutputDir]))
    else if OutputDir in d.files then Err(NotADirectory(path))
    else if OutputDir !in d.dirs then Err(NoSuchFile(path))
    else Ok(d.(dirs := {}, files := map[]))
  }

  /** `os.makedirs` of one folder: fails when the node is faulty or already
      exists; otherwise the folder is added. */
  function MakeDir(d: Disk, n: Node, path: string): (r: Result<Disk, OsError>)
    ensures r.Ok? <==> n !in d.faults && n !in d.dirs && n !in d.files
    ensures r.Ok? ==>
      r.value.dirs == d.dirs + {n} && r.value.files == d.files && r.value.faults == d.faults && r.value.documents == d.documents
    ensures n !in d.faults && (n in d.dirs || n in d.files) ==> r == Err(FileExists(path))
  {
    if n in d.faults then Err(Denied(d.faults[n]))
    else if n in d.dirs || n in d.files then Err(FileExists(path))
    else Ok(d.(dirs := d.dirs + {n}))
  }

  /** The folder a file node lives in. */
  function Parent(n: Node): Node
  {
    if n.SliceFile? then SlicesDir else OutputDir
  }

  /** True iff a file may be (re)written at node `n`. */
  predicate Writable(d: Disk, n: Node)
  {
    n !in d.faults && n !in d.dirs && Parent(n) in d.dirs
  }

  /** Writing audio at `n`; None when the write raises. */
  function Write(d: Disk, n: Node, a: Audio): (r: Option<Disk>)
    ensures r.Some? <==> Writable(d, n)
    ensures r.Some? ==> r.value.files == d.files[n := a]
    ensures r.Some? ==> r.value.dirs == d.dirs && r.value.faults == d.faults && r.value.documents == d.documents
  {
    if Writable(d, n) then Some(d.(files := d.files[n := a])) else None
  }

  /** Reading the audio at `n`; None when the read raises. */
  function Read(d: Disk, n: Node): (r: Option<Audio>)
    ensures r.Some? <==> n !in d.faults && n in d.files
    ensures r.Some? ==> r.value == d.files[n]
  {
    if n in d.faults || n !in d.files then None else Some(d.files[n])
  }

  /** What is written can be read back unchanged, and writing one node
      leaves what every other node reads. */
  lemma ReadAfterWrite(d: Disk, n: Node, a: Audio, m: Node)
    requires Write(d, n, a).Some?
    ensures Read(Write(d, n, a).value, n) == Some(a)
    ensures m != n ==> Read(Write(d, n, a).value, m) == Read(d, m)
  {
  }

  /** A write adds `n` and keeps every other file, present or absent, as it
      was. */
  lemma WriteKeepsOthers(d: Disk, n: Node, a: Audio)
    requires Write(d, n, a).Some?
    ensures n in Write(d, n, a).value.files && Write(d, n, a).value.files[n] == a
    ensures forall m :: m != n ==> (m in Write(d, n, a).value.files <==> m in d.files)
    ensures forall m :: m != n && m in d.files ==> Write(d, n, a).value.files[m] == d.files[m]
  {
  }
}

=== FILE: jobs.dfy ===
/** The generator's mutable record, here an immutable value that each
    operation returns updated, and the single point through which every
    terminal outcome is committed. */
module Jobs {
  import opened Wrappers
  import opened Files
  import Text

  /** One generation run: its inputs, its progress counters, its
      timestamps (opaque clock readings) and its terminal status. */
  datatype Job = Job(
    inputFile: string,
    outputFolder: string,
    language: string,
    finish: bool,
    startTime: Option<int>,
    endTime: Option<int>,
    paragraphs: seq<string>,
    total: nat,
    processed: nat,
    status: string)

  /** The result of one stage: the integer it returns with the job and disk
      it leaves, or an exception escaping with the state reached so far. */
  datatype Step =
    | Done(code: int, job: Job, disk: Disk)
    | Raised(job: Job, disk: Disk)

  /** The status text of the one successful outcome. */
  const SuccessMessage := "Audiobook generated successfully"

  /** The value `change_status` returns. */
  const FailureCode := 1

  /** A new generator: nothing loaded, nothing processed, not finished. */
  function NewJob(inputFile: string, outputFolder: string, language: string): (j: Job)
    ensures j.inputFile == inputFile && j.outputFolder == outputFolder && j.language == language
    ensures !j.finish && j.status == ""
    ensures j.paragraphs == [] && j.total == 0 && j.processed == 0
    ensures j.startTime.None? && j.endTime.None?
  {
    Job(inputFile, outputFolder, language, false, None, None, [], 0, 0, "")
  }

  /** `change_status(status)`: records the status, raises `finish` and
      returns 1; every other field is left as it was. */
  function ChangeStatus(job: Job, status: string): (r: (int, Job))
    ensures r.0 == FailureCode
    ensures r.1.status == status && r.1.finish
    ensures r.1 == job.(status := status, finish := true)
  {
    (FailureCode, job.(status := status, finish := true))
  }

  /** A stage's failure return: `return self.change_status(status)`. */
  function Fail(job: Job, disk: Disk, status: string): (r: Step)
  {
    var (code, j) := ChangeStatus(job, status);
    Done(code, j, disk)
  }

  /** True iff `status` is one of the error texts the stages commit: all of
      them start with "Error". */
  predicate IsErrorText(status: string)
  {
    Text.StartsWith(status, "Error")
  }

  /** No error text can be mistaken for the success text. */
  lemma ErrorIsNotSuccess(status: string)
    requires IsErrorText(status)
    ensures status != SuccessMessage
  {
    assert status[0] == 'E';
    assert SuccessMessage[0] == 'A';
  }
}

=== FILE: merger.dfy ===
/** The `merge_audio` stage: every slice's frames appended, in index
    order, to one output file. The writer's parameters are re-adopted from
    each slice for as long as no frame has been written, but the file's
    header is committed by the first frame write, with slice 0's
    parameters, and later only has its lengths patched. */
module Merger {
  import opened Wrappers
  import opened Sound
  import opened Files
  import opened Jobs

  /** The state of the open output file: the parameters set so far (None
      before the first `setparams`), the parameters its header was
      written with (None before the first frame write) and the frames
      written. */
  datatype Writer = Writer(format: Option<Format>, header: Option<Format>, frames: seq<int>)

  /** One loop iteration: adopt the slice's parameters while the output
      has no frames, then write the slice's frames; the first write, even
      of no frames, commits the header with the parameters then set. */
  function Append(w: Writer, slice: Audio): (r: Writer)
    ensures r.frames == w.frames + slice.frames
    ensures |w.frames| > 0 ==> r.format == w.format
    ensures |w.frames| == 0 ==> r.format == Some(slice.format)
    ensures w.header.Some? ==> r.header == w.header
    ensures w.header.None? ==> r.header == r.format
  {
    var format := if |w.frames| == 0 then Some(slice.format) else w.format;
    Writer(format, if w.header.None? then format else w.header, w.frames + slice.frames)
  }

  /** The output after the loop has gone over `slices` in order. */
  function MergeAll(slices: seq<Audio>): Writer
  {
    if |slices| == 0 then Writer(None, None, [])
    else Append(MergeAll(slices[..|slices| - 1]), slices[|slices| - 1])
  }

  /** Reference definition: the frames of all slices, one slice after the
      other. */
  function Frames(slices: seq<Audio>): seq<int>
  {
    if |slices| == 0 then [] else slices[0].frames + Frames(slices[1..])
  }

  /** Reference definition: the sum of the slices' frame counts. */
  function FrameTotal(slices: seq<Audio>): nat
  {
    if |slices| == 0 then 0 else |slices[0].frames| + FrameTotal(slices[1..])
  }

  /** Reference definition: the format of the first slice that has frames,
      or of the last slice when none has. */
  function AdoptedFormat(slices: seq<Audio>): Format
    requires |slices| >= 1
  {
    if |slices| == 1 || |slices[0].frames| > 0 then slices[0].format
    else AdoptedFormat(slices[1..])
  }

  /** The concatenation has as many frames as the slices together. */
  lemma {:induction false} FramesLength(slices: seq<Audio>)
    ensures |Frames(slices)| == FrameTotal(slices)
  {
    if |slices| > 0 {
      FramesLength(slices[1..]);
    }
  }

  /** Appending a slice at the end appends its frames at the end. */
  lemma {:induction false} FramesSnoc(slices: seq<Audio>, a: Audio)
    ensures Frames(slices + [a]) == Frames(slices) + a.frames
  {
    if |slices| == 0 {
      assert Frames([a]) == a.frames + Frames([]);
    } else {
      assert (slices + [a])[1..] == slices[1..] + [a];
      FramesSnoc(slices[1..], a);
    }
  }

  /** A slice appended after slices without frames decides the format
      exactly when none before it had frames. */
  lemma {:induction false} AdoptedFormatSnoc(slices: seq<Audio>, a: Audio)
    ensures AdoptedFormat(slices + [a]) == (if FrameTotal(slices) == 0 then a.format else AdoptedFormat(slices))
  {
    if |slices| > 0 {
      assert (slices + [a])[0] == slices[0];
      if |slices| > 1 {
        assert (slices + [a])[1..] == slices[1..] + [a];
        AdoptedFormatSnoc(slices[1..], a);
      } else {
        assert (slices + [a])[1..] == [a];
      }
    }
  }

  /** The merge writes exactly the concatenation of the slices' frames;
      its parameters are those of the first slice with frames, or of the
      last slice when all are empty, and its header holds the first
      slice's; with no slice it sets neither. */
  lemma {:induction false} MergeAllSpec(slices: seq<Audio>)
    ensures MergeAll(slices).frames == Frames(slices)
    ensures |slices| == 0 <==> MergeAll(slices).format.None?
    ensures |slices| == 0 <==> MergeAll(slices).header.None?
    ensures |slices| >= 1 ==> MergeAll(slices).format == Some(AdoptedFormat(slices))
    ensures |slices| >= 1 ==> MergeAll(slices).header == Some(slices[0].format)
  {
    if |slices| > 0 {
      var init := slices[..|slices| - 1];
      var last := slices[|slices| - 1];
      assert init + [last] == slices;
      MergeAllSpec(init);
      FramesSnoc(init, last);
      FramesLength(init);
      AdoptedFormatSnoc(init, last);
      if |init| > 0 {
        assert init[0] == slices[0];
      }
    }
  }

  /** The header agrees with the parameters the writer ends with when the
      first slice has frames or is the only one, and when all slices share
      one format. */
  lemma HeaderAgreement(slices: seq<Audio>)
    requires |slices| >= 1
    ensures |slices[0].frames| > 0 || |slices| == 1 ==> AdoptedFormat(slices) == slices[0].format
    ensures (forall j :: 0 <= j < |slices| ==> slices[j].format == slices[0].format) ==> AdoptedFormat(slices) == slices[0].format
  {
    if forall j :: 0 <= j < |slices| ==> slices[j].format == slices[0].format {
      UniformFormat(slices, slices[0].format);
    }
  }

  /** An empty first slice followed by a slice of another rate: the writer
      ends with the second slice's rate while the header keeps the first
      slice's. */
  lemma HeaderKeepsFirstRate()
    ensures var slices := [Audio(Format(1, 2, 44100), []), Audio(Format(1, 2, 16000), [0])];
      && MergeAll(slices).format == Some(Format(1, 2, 16000))
      && MergeAll(slices).header == Some(Format(1, 2, 44100))
  {
    var slices := [Audio(Format(1, 2, 44100), []), Audio(Format(1, 2, 16000), [0])];
    MergeAllSpec(slices);
  }

  /** The first slice that has frames fixes the format; if none has, the
      last one does. */
  lemma {:induction false} AdoptedFormatIsFirstWithFrames(slices: seq<Audio>, i: nat)
    requires i < |slices|
    requires |slices[i].frames| > 0 || i == |slices| - 1
    requires forall j :: 0 <= j < i ==> |slices[j].frames| == 0
    ensures AdoptedFormat(slices) == slices[i].format
  {
    if i > 0 {
      AdoptedFormatIsFirstWithFrames(slices[1..], i - 1);
    }
  }

  /** The adopted format is the format of one of the slices. */
  lemma {:induction false} AdoptedFormatIsOneOf(slices: seq<Audio>) returns (i: nat)
    requires |slices| >= 1
    ensures i < |slices| && AdoptedFormat(slices) == slices[i].format
  {
    if |slices| == 1 || |slices[0].frames| > 0 {
      i := 0;
    } else {
      var j := AdoptedFormatIsOneOf(slices[1..]);
      i := j + 1;
    }
  }

  /** Slices that share one format give that format to the output. */
  lemma {:induction false} UniformFormat(slices: seq<Audio>, f: Format)
    requires |slices| >= 1
    requires forall j :: 0 <= j < |slices| ==> slices[j].format == f
    ensures AdoptedFormat(slices) == f
  {
    if |slices| > 1 {
      UniformFormat(slices[1..], f);
    }
  }

  /** Reading slices `0 .. k-1` in order; None when one of them raises. */
  function ReadSlices(d: Disk, k: nat): (r: Option<seq<Audio>>)
    ensures r.Some? ==> |r.value| == k
  {
    if k == 0 then Some([])
    else
      match ReadSlices(d, k - 1)
      case None => None
      case Some(prefix) =>
        match Read(d, SliceFile(k - 1))
        case None => None
        case Some(a) => Some(prefix + [a])
  }

  /** True iff slice `i` can be read from `d`. */
  predicate Readable(d: Disk, i: nat)
  {
    SliceFile(i) !in d.faults && SliceFile(i) in d.files
  }

  /** The reads succeed exactly when every slice is readable, and then
      yield the slices on disk in index order. */
  lemma {:induction false} ReadSlicesSpec(d: Disk, k: nat)
    ensures ReadSlices(d, k).Some? <==> forall i :: 0 <= i < k ==> Readable(d, i)
    ensures ReadSlices(d, k).Some? ==>
      forall i :: 0 <= i < k ==> SliceFile(i) in d.files && ReadSlices(d, k).value[i] == d.files[SliceFile(i)]
  {
    if k > 0 {
      ReadSlicesSpec(d, k - 1);
      var prev := ReadSlices(d, k - 1);
      assert (forall i :: 0 <= i < k ==> Readable(d, i)) <==> (forall i :: 0 <= i < k - 1 ==> Readable(d, i)) && Readable(d, k - 1);
      if prev.Some? && Readable(d, k - 1) {
        assert ReadSlices(d, k).value == prev.value + [d.files[SliceFile(k - 1)]];
      }
    }
  }

  /** `merge_audio`: open `audiobook.wav` for writing, go over slices
      `0 .. total-1`, and close the file, which needs parameters to have
      been set. The file holds the frames written under the header
      committed at the first write. It never returns anything but 0: an unwritable output, an
      unreadable slice, or no slice at all raises. */
  function MergeAudio(job: Job, d: Disk): (r: Step)
    ensures r.Done? ==> r.code == 0 && r.job == job
    ensures job.total == 0 ==> r.Raised?
  {
    match ReadSlices(d, job.total)
    case None => Raised(job, d)
    case Some(slices) =>
      var w := MergeAll(slices);
      MergeAllSpec(slices);
      match w.header
      case None => Raised(job, d)
      case Some(f) =>
        match Write(d, ArtifactFile, Audio(f, w.frames))
        case None => Raised(job, d)
        case Some(written) => Done(0, job, written)
  }

  /** A merge completes exactly when the output can be written and every
      slice read; the output then holds the concatenated frames under the
      first slice's format, and every other node is left as it was. */
  lemma MergeAudioSpec(job: Job, d: Disk)
    ensures var r := MergeAudio(job, d);
      && (r.Done? <==> job.total >= 1 && Writable(d, ArtifactFile) && forall i :: 0 <= i < job.total ==> Readable(d, i))
      && (r.Done? ==>
            var slices := ReadSlices(d, job.total).value;
            && r.disk == d.(files := d.files[ArtifactFile := Audio(slices[0].format, Frames(slices))])
            && |Frames(slices)| == FrameTotal(slices))
  {
    ReadSlicesSpec(d, job.total);
    if ReadSlices(d, job.total).Some? {
      var slices := ReadSlices(d, job.total).value;
      MergeAllSpec(slices);
      FramesLength(slices);
    }
  }
}

=== FILE: pipeline.dfy ===
/** `start`: the pipeline controller running `clear`, `load_file`,
    `generate_audio` and `merge_audio` in that order, stopping at the first
    stage that returns non-zero, and committing the success status. */
module Pipeline {
  import opened Wrappers
  import opened Sound
  import opened Files
  import opened Jobs
  import Preparation
  import Synthesis
  import Merger
  import Text

  /** The stages, named as in `method_order`. */
  datatype StageName = Clear | LoadFile | GenerateAudio | MergeAudio

  /** `method_order`. */
  const MethodOrder: seq<StageName> := [Clear, LoadFile, GenerateAudio, MergeAudio]

  /** `getattr(self, method)()`. */
  function RunStage(s: StageName, job: Job, d: Disk, e: Engine): Step
  {
    match s
    case Clear => Preparation.Clear(job, d)
    case LoadFile => Preparation.LoadFile(job, d)
    case GenerateAudio => Synthesis.GenerateAudio(job, d, e)
    case MergeAudio => Merger.MergeAudio(job, d)
  }

  /** How a run of stages ended: every stage returned 0, one returned the
      given non-zero value, or an exception escaped. */
  datatype Outcome = Passed | Returned(code: int) | Escaped

  /** The end of a run, with the stages that were invoked, in order. */
  datatype Run = Run(outcome: Outcome, job: Job, disk: Disk, ran: seq<StageName>)

  /** The stages of a job run with engine `e`. */
  function StagesWith(e: Engine): (StageName, Job, Disk) -> Step
  {
    (s: StageName, job: Job, d: Disk) => RunStage(s, job, d, e)
  }

  /** The loop of `start` over `stages`, each invoked through `stage`:
      invoke each stage in turn and stop
      at the first non-zero return or escaping exception. The stages
      invoked are a prefix of `stages`, all of them unless the run
      stopped early, and a stop always has a stage to blame. */
  function RunStages(stages: seq<StageName>, job: Job, d: Disk, stage: (StageName, Job, Disk) -> Step): (r: Run)
    ensures |r.ran| <= |stages| && r.ran == stages[..|r.ran|]
    ensures r.outcome.Passed? ==> r.ran == stages
    ensures !r.outcome.Passed? ==> |r.ran| >= 1
    ensures r.outcome.Returned? ==> r.outcome.code != 0
  {
    if |stages| == 0 then Run(Passed, job, d, [])
    else
      match stage(stages[0], job, d)
      case Raised(j, d') => Run(Escaped, j, d', [stages[0]])
      case Done(code, j, d') =>
        if code != 0 then Run(Returned(code), j, d', [stages[0]])
        else
          var rest := RunStages(stages[1..], j, d', stage);
          rest.(ran := [stages[0]] + rest.ran)
  }

  /** `start` with the clock read as `now` at the start and `later` after
      the last stage: clear `finish`, record the start time, run the stages,
      and on success record the end time, commit the success status and
      return 0. It runs at least `clear` and never a stage out of order. */
  function Start(job: Job, d: Disk, e: Engine, now: int, later: int): (r: Run)
    ensures !r.outcome.Passed?
    ensures 1 <= |r.ran| <= |MethodOrder| && r.ran == MethodOrder[..|r.ran|]
  {
    var run := RunStages(MethodOrder, job.(finish := false, startTime := Some(now)), d, StagesWith(e));
    if run.outcome.Passed? then
      var (_, j) := ChangeStatus(run.job.(endTime := Some(later)), SuccessMessage);
      Run(Returned(0), j, run.disk, run.ran)
    else run
  }

  /** A run that stops is blamed on its last stage: every stage before it
      returned 0 (their run on its own passes), and the last stage, invoked
      on the state they left, returned the run's value or raised. */
  lemma {:induction false} FirstFailureStops(stages: seq<StageName>, job: Job, d: Disk, stage: (StageName, Job, Disk) -> Step)
    requires !RunStages(stages, job, d, stage).outcome.Passed?
    ensures var r := RunStages(stages, job, d, stage);
      var before := RunStages(stages[..|r.ran| - 1], job, d, stage);
      var last := stage(stages[|r.ran| - 1], before.job, before.disk);
      && before.outcome.Passed?
      && (r.outcome.Returned? ==> last == Done(r.outcome.code, r.job, r.disk))
      && (r.outcome.Escaped? ==> last == Raised(r.job, r.disk))
  {
    var first := stage(stages[0], job, d);
    if first.Done? && first.code == 0 {
      FirstFailureStops(stages[1..], first.job, first.disk, stage);
      var r := RunStages(stages, job, d, stage);
      var rest := RunStages(stages[1..], first.job, first.disk, stage);
      assert |r.ran| == |rest.ran| + 1;
      assert stages[..|r.ran| - 1][1..] == stages[1..][..|rest.ran| - 1];
      assert stages[|r.ran| - 1] == stages[1..][|rest.ran| - 1];
    } else {
      assert stages[..0] == [];
    }
  }

  /** True iff two jobs agree on the fields a caller inspects once the run
      is over: the flag, the status and the timestamps. */
  predicate SameVerdict(a: Job, b: Job)
  {
    a.finish == b.finish && a.status == b.status && a.startTime == b.startTime && a.endTime == b.endTime
  }

  /** What a stage may return, judged against the job it ran on: `clear`
      and `load_file` return 0 or the value of `change_status`, with an
      error status; `generate_audio` and `merge_audio` return 0 or raise.
      A stage that returns 0 or raises leaves the verdict fields alone, and
      no stage moves the output folder. */
  predicate StageVerdict(s: StageName, before: Job, r: Step)
  {
    && (r.Raised? ==> s == GenerateAudio || s == MergeAudio)
    && (r.Done? && r.code != 0 ==>
          && (s == Clear || s == LoadFile)
          && r.code == FailureCode
          && r.job.finish && IsErrorText(r.job.status)
          && r.job.startTime == before.startTime && r.job.endTime == before.endTime)
    && (r.Raised? || r.code == 0 ==> SameVerdict(r.job, before))
    && r.job.outputFolder == before.outputFolder
  }

  /** Every stage of the generator keeps to `StageVerdict`. */
  lemma StageFacts(s: StageName, job: Job, d: Disk, e: Engine)
    ensures StageVerdict(s, job, RunStage(s, job, d, e))
  {
    if s == GenerateAudio && job.language in e.voices {
      Synthesis.SynthesizeRangeKeepsJob(job, d, e, job.total);
    }
  }

  /** Stages that keep to `StageVerdict` make a run that passes or raises
      with the verdict fields untouched, and a run that returns non-zero
      with `finish` set and an error status, blamed on `clear` or
      `load_file`; an exception is blamed on `generate_audio` or
      `merge_audio`. */
  lemma {:induction false} RunStagesVerdict(stages: seq<StageName>, job: Job, d: Disk, stage: (StageName, Job, Disk) -> Step)
    requires forall s, j, dd :: s in stages ==> StageVerdict(s, j, stage(s, j, dd))
    ensures var r := RunStages(stages, job, d, stage);
      && (r.outcome.Passed? || r.outcome.Escaped? ==> SameVerdict(r.job, job))
      && (r.outcome.Returned? ==>
            && r.outcome.code == FailureCode
            && r.job.finish && IsErrorText(r.job.status)
            && r.job.startTime == job.startTime && r.job.endTime == job.endTime
            && (r.ran[|r.ran| - 1] == Clear || r.ran[|r.ran| - 1] == LoadFile))
      && (r.outcome.Escaped? ==> r.ran[|r.ran| - 1] == GenerateAudio || r.ran[|r.ran| - 1] == MergeAudio)
      && r.job.outputFolder == job.outputFolder
  {
    if |stages| > 0 {
      var first := stage(stages[0], job, d);
      assert StageVerdict(stages[0], job, first);
      if first.Done? && first.code == 0 {
        assert forall s :: s in stages[1..] ==> s in stages;
        RunStagesVerdict(stages[1..], first.job, first.disk, stage);
      }
    }
  }

  /** Every way `start` can end: a return value of 0 or 1 always comes with
      `finish` set, 0 exactly with the success status after all four
      stages, 1 with an error status blamed on `clear` or `load_file`; an
      exception escapes from `generate_audio` or `merge_audio` with `finish`
      still false. The start time is recorded in every case, the end time
      only on success, and the output folder is kept. */
  lemma StartOutcome(job: Job, d: Disk, e: Engine, now: int, later: int)
    ensures var r := Start(job, d, e, now, later);
      && (r.outcome.Returned? <==> r.job.finish)
      && (r.outcome.Returned? ==> r.outcome.code == 0 || r.outcome.code == FailureCode)
      && (r.outcome == Returned(0) <==> r.job.finish && r.job.status == SuccessMessage)
      && (r.outcome == Returned(0) ==> r.ran == MethodOrder && r.job.endTime == Some(later))
      && (r.outcome == Returned(FailureCode) ==>
            IsErrorText(r.job.status) && (r.ran == [Clear] || r.ran == [Clear, LoadFile]) && r.job.endTime == job.endTime)
      && (r.outcome.Escaped? ==>
            (r.ran == [Clear, LoadFile, GenerateAudio] || r.ran == MethodOrder) && r.job.endTime == job.endTime)
      && r.job.startTime == Some(now)
      && r.job.outputFolder == job.outputFolder
  {
    var j0 := job.(finish := false, startTime := Some(now));
    var stage := StagesWith(e);
    forall s, j, dd | s in MethodOrder
      ensures StageVerdict(s, j, stage(s, j, dd))
    {
      StageFacts(s, j, dd, e);
    }
    RunStagesVerdict(MethodOrder, j0, d, stage);
    var run := RunStages(MethodOrder, j0, d, stage);
    if run.outcome.Returned? {
      ErrorIsNotSuccess(run.job.status);
    }
    assert |run.ran| == 1 || |run.ran| == 2 || |run.ran| == 3 || |run.ran| == 4;
  }

  /** A stage that returns 0 hands its state to the rest of the stages. */
  lemma RunStagesPass(stages: seq<StageName>, job: Job, d: Disk, stage: (StageName, Job, Disk) -> Step, j: Job, d': Disk)
    requires |stages| >= 1 && stage(stages[0], job, d) == Done(0, j, d')
    ensures RunStages(stages, job, d, stage) == RunStages(stages[1..], j, d', stage).(ran := [stages[0]] + RunStages(stages[1..], j, d', stage).ran)
  {
  }

  /** A stage that returns non-zero ends the run there. */
  lemma RunStagesStop(stages: seq<StageName>, job: Job, d: Disk, stage: (StageName, Job, Disk) -> Step)
    requires |stages| >= 1 && stage(stages[0], job, d).Done? && stage(stages[0], job, d).code != 0
    ensures RunStages(stages, job, d, stage).outcome == Returned(stage(stages[0], job, d).code)
  {
  }

  /** A stage that raises ends the run there. */
  lemma RunStagesRaise(stages: seq<StageName>, job: Job, d: Disk, stage: (StageName, Job, Disk) -> Step)
    requires |stages| >= 1 && stage(stages[0], job, d).Raised?
    ensures RunStages(stages, job, d, stage).outcome == Escaped
  {
  }

  /** True iff a run of `start` on `d` gets through every stage: the output
      folder can be rebuilt, the document reads as text, the language has
      a voice, the engine voices every non-empty paragraph, and neither a
      slice file nor the output file is faulty. */
  predicate Succeeds(job: Job, d: Disk, e: Engine)
  {
    && Preparation.CanClear(d)
    && job.inputFile in d.documents && d.documents[job.inputFile].Decoded?
    && job.language in e.voices
    && ArtifactFile !in d.faults
    && var paragraphs := Preparation.Paragraphs(d.documents[job.inputFile].text);
       forall i :: 0 <= i < |paragraphs| ==>
         SliceFile(i) !in d.faults && Synthesis.Speakable(e, job.language, paragraphs[i])
  }

  /** The disk `clear` leaves behind: the two folders and no file. */
  function Cleared(d: Disk): Disk
  {
    d.(dirs := {OutputDir, SlicesDir}, files := map[])
  }

  /** `clear` as the first stage of `start`. */
  lemma StageClear(job: Job, d: Disk, e: Engine)
    ensures var s := StagesWith(e)(Clear, job, d);
      && (Preparation.CanClear(d) ==> s == Done(0, job, Cleared(d)))
      && (!Preparation.CanClear(d) ==> s.Done? && s.code != 0)
  {
  }

  /** `load_file` as the second stage of `start`. */
  lemma StageLoad(job: Job, d: Disk, e: Engine)
    ensures var s := StagesWith(e)(LoadFile, job, d);
      && (job.inputFile in d.documents && d.documents[job.inputFile].Decoded? ==>
            var paragraphs := Preparation.Paragraphs(d.documents[job.inputFile].text);
            s == Done(0, job.(paragraphs := paragraphs, total := |paragraphs|), d))
      && (!(job.inputFile in d.documents && d.documents[job.inputFile].Decoded?) ==> s.Done? && s.code != 0)
  {
  }

  /** `generate_audio` as the third stage of `start`, on a cleared disk. */
  lemma StageGenerate(job: Job, d: Disk, e: Engine)
    requires job.total == |job.paragraphs|
    requires d.dirs == {OutputDir, SlicesDir} && d.files == map[]
    ensures var s := StagesWith(e)(GenerateAudio, job, d);
      && (s.Done? <==> (job.language in e.voices && forall i :: 0 <= i < job.total ==>
            SliceFile(i) !in d.faults && Synthesis.Speakable(e, job.language, job.paragraphs[i])))
      && (s.Done? ==>
            && (job.total > 0 ==> s.job == job.(processed := job.total))
            && s.code == 0
            && s.disk == d.(files := s.disk.files)
            && Synthesis.HoldsSlices(s.disk.files, job, e, job.total)
            && Synthesis.OthersKept(s.disk.files, d.files, job.total))
  {
    var s := StagesWith(e)(GenerateAudio, job, d);
    Synthesis.GenerateAudioSpec(job, d, e);
    forall i | 0 <= i < job.total
      ensures Synthesis.StepSucceeds(job, d, e, i) <==>
        SliceFile(i) !in d.faults && Synthesis.Speakable(e, job.language, job.paragraphs[i])
    {
      assert Writable(d, SliceFile(i)) <==> SliceFile(i) !in d.faults;
    }
    if s.Done? {
      Synthesis.SynthesizeRangeDisk(job, d, e, job.total);
    }
  }

  /** `merge_audio` as the last stage of `start`, after the slices of every
      paragraph have been written. */
  lemma StageMerge(job: Job, d: Disk, e: Engine, slices: seq<Audio>)
    requires job.total >= 1 && |slices| == job.total
    requires OutputDir in d.dirs && ArtifactFile !in d.dirs
    requires forall i :: 0 <= i < job.total ==> SliceFile(i) !in d.faults && SliceFile(i) in d.files && d.files[SliceFile(i)] == slices[i]
    ensures var s := StagesWith(e)(MergeAudio, job, d);
      && (s.Done? <==> ArtifactFile !in d.faults)
      && (s.Done? ==> s == Done(0, job, d.(files := d.files[ArtifactFile := Audio(slices[0].format, Merger.Frames(slices))])))
  {
    Merger.MergeAudioSpec(job, d);
    Merger.ReadSlicesSpec(d, job.total);
    if Merger.ReadSlices(d, job.total).Some? {
      assert Merger.ReadSlices(d, job.total).value == slices;
    }
  }

  /** The last two stages on a cleared disk: they pass exactly when the
      language has a voice, the engine voices every paragraph, and neither
      a slice file nor the output file is faulty; the disk then holds the
      slices and the audiobook, and `processed` has reached `total`. */
  lemma TailRun(j2: Job, d1: Disk, e: Engine)
    requires j2.total == |j2.paragraphs| >= 1
    requires d1.dirs == {OutputDir, SlicesDir} && d1.files == map[]
    ensures var r := RunStages(MethodOrder[2..], j2, d1, StagesWith(e));
      && (r.outcome.Passed? <==>
            && j2.language in e.voices && ArtifactFile !in d1.faults
            && forall i :: 0 <= i < j2.total ==>
                 SliceFile(i) !in d1.faults && Synthesis.Speakable(e, j2.language, j2.paragraphs[i]))
      && (r.outcome.Passed? ==>
            var slices := Synthesis.SliceSeq(e, j2.language, j2.paragraphs);
            && r.job == j2.(processed := j2.total)
            && r.disk.dirs == d1.dirs && r.disk.faults == d1.faults && r.disk.documents == d1.documents
            && (forall n :: n in r.disk.files <==> n == ArtifactFile || (n.SliceFile? && n.index < j2.total))
            && (forall i :: 0 <= i < j2.total ==> r.disk.files[SliceFile(i)] == slices[i])
            && r.disk.files[ArtifactFile] == Audio(slices[0].format, Merger.Frames(slices)))
  {
    var st := StagesWith(e);
    var order3 := [GenerateAudio, MergeAudio];
    assert MethodOrder[2..] == order3;
    StageGenerate(j2, d1, e);
    var s3 := st(GenerateAudio, j2, d1);
    if s3.Raised? {
      RunStagesRaise(order3, j2, d1, st);
      return;
    }
    var j3 := s3.job;
    var d3 := s3.disk;
    RunStagesPass(order3, j2, d1, st, j3, d3);
    assert order3[1..] == [MergeAudio];
    var slices := Synthesis.SliceSeq(e, j2.language, j2.paragraphs);
    forall i | 0 <= i < j2.total
      ensures SliceFile(i) in d3.files && d3.files[SliceFile(i)] == slices[i]
    {
      assert Some(d3.files[SliceFile(i)]) == Synthesis.SliceAt(j2, e, i);
    }
    StageMerge(j3, d3, e, slices);
    var s4 := st(MergeAudio, j3, d3);
    if s4.Raised? {
      RunStagesRaise([MergeAudio], j3, d3, st);
      return;
    }
    assert [MergeAudio][1..] == [];
  }

  /** `start` returns 0 exactly when it gets through every stage, and then
      the job holds the document's paragraphs, one more than its line
      feeds, all of them processed, and its inputs are unchanged; the
      output tree holds nothing but the folders, the slices `0 .. total-1`
      of this run (none left from an earlier one) and the audiobook, whose
      frames are the slices' frames in order, whose header holds the first
      slice's format, and whose samples are 16-bit. */
  lemma StartSuccess(job: Job, d: Disk, e: Engine, now: int, later: int)
    ensures Start(job, d, e, now, later).outcome == Returned(0) <==> Succeeds(job, d, e)
    ensures Succeeds(job, d, e) ==>
      var r := Start(job, d, e, now, later);
      var lines := Text.UniversalNewlines(d.documents[job.inputFile].text);
      var paragraphs := Preparation.Paragraphs(d.documents[job.inputFile].text);
      var slices := Synthesis.SliceSeq(e, job.language, paragraphs);
      && r.job == job.(finish := true, status := SuccessMessage, startTime := Some(now), endTime := Some(later),
                       paragraphs := paragraphs, total := |paragraphs|, processed := |paragraphs|)
      && |paragraphs| == Text.Count(lines, '\n') + 1
      && r.disk.dirs == {OutputDir, SlicesDir} && r.disk.faults == d.faults && r.disk.documents == d.documents
      && (forall n :: n in r.disk.files <==> n == ArtifactFile || (n.SliceFile? && n.index < |paragraphs|))
      && (forall i :: 0 <= i < |paragraphs| ==> r.disk.files[SliceFile(i)] == slices[i])
      && r.disk.files[ArtifactFile] == Audio(slices[0].format, Merger.Frames(slices))
      && r.disk.files[ArtifactFile].format.width == 2
  {
    StartSucceedsExactly(job, d, e, now, later);
    if Succeeds(job, d, e) {
      StartSuccessState(job, d, e, now, later);
    }
  }

  /** `start` returns 0 exactly when the job and the disk are fit. */
  lemma StartSucceedsExactly(job: Job, d: Disk, e: Engine, now: int, later: int)
    ensures Start(job, d, e, now, later).outcome == Returned(0) <==> Succeeds(job, d, e)
  {
    var j0 := job.(finish := false, startTime := Some(now));
    var st := StagesWith(e);
    if !Preparation.CanClear(d) {
      StageClear(j0, d, e);
      RunStagesStop(MethodOrder, j0, d, st);
      return;
    }
    if !(job.inputFile in d.documents && d.documents[job.inputFile].Decoded?) {
      PassClear(j0, d, e);
      StageLoad(j0, Cleared(d), e);
      RunStagesStop(MethodOrder[1..], j0, Cleared(d), st);
      return;
    }
    var text := d.documents[job.inputFile].text;
    var paragraphs := Preparation.Paragraphs(text);
    ThroughLoad(j0, d, e);
    Text.SplitCount(Text.UniversalNewlines(text), '\n');
    TailRun(j0.(paragraphs := paragraphs, total := |paragraphs|), Cleared(d), e);
  }

  /** What a successful `start` leaves behind. */
  lemma StartSuccessState(job: Job, d: Disk, e: Engine, now: int, later: int)
    requires Succeeds(job, d, e)
    ensures var r := Start(job, d, e, now, later);
      var lines := Text.UniversalNewlines(d.documents[job.inputFile].text);
      var paragraphs := Preparation.Paragraphs(d.documents[job.inputFile].text);
      var slices := Synthesis.SliceSeq(e, job.language, paragraphs);
      && r.job == job.(finish := true, status := SuccessMessage, startTime := Some(now), endTime := Some(later),
                       paragraphs := paragraphs, total := |paragraphs|, processed := |paragraphs|)
      && |paragraphs| == Text.Count(lines, '\n') + 1
      && r.disk.dirs == {OutputDir, SlicesDir} && r.disk.faults == d.faults && r.disk.documents == d.documents
      && (forall n :: n in r.disk.files <==> n == ArtifactFile || (n.SliceFile? && n.index < |paragraphs|))
      && (forall i :: 0 <= i < |paragraphs| ==> r.disk.files[SliceFile(i)] == slices[i])
      && r.disk.files[ArtifactFile] == Audio(slices[0].format, Merger.Frames(slices))
      && r.disk.files[ArtifactFile].format.width == 2
  {
    var j0 := job.(finish := false, startTime := Some(now));
    var text := d.documents[job.inputFile].text;
    var paragraphs := Preparation.Paragraphs(text);
    ThroughLoad(j0, d, e);
    Text.SplitCount(Text.UniversalNewlines(text), '\n');
    TailRun(j0.(paragraphs := paragraphs, total := |paragraphs|), Cleared(d), e);
  }

  /** A removal that fails, as on a first run where the output folder does
      not exist yet, ends `start` at `clear` with 1: the cleaning error is
      committed, `finish` is raised and the disk is untouched. With the
      folder simply missing the status carries the "No such file" error for
      `<out>/output`. */
  lemma RemovalFails(job: Job, d: Disk, e: Engine, now: int, later: int)
    requires OutputDir in d.faults || OutputDir in d.files || OutputDir !in d.dirs
    ensures var r := Start(job, d, e, now, later);
      && r.outcome == Returned(FailureCode) && r.ran == [Clear] && r.disk == d
      && r.job.finish
      && Text.StartsWith(r.job.status, "Error while cleaning output folder \"" + OutputPath(job.outputFolder) + "\": ")
    ensures OutputDir !in d.faults && OutputDir !in d.files && OutputDir !in d.dirs ==>
      Start(job, d, e, now, later).job.status
        == Preparation.CleanError(job.outputFolder, NoSuchFile(OutputPath(job.outputFolder)))
  {
    var j0 := job.(finish := false, startTime := Some(now));
    RunStagesStop(MethodOrder, j0, d, StagesWith(e));
  }

  /** On a disk `clear` can rebuild, the first stage returns 0 and the run
      goes on from the cleared disk. */
  lemma PassClear(j0: Job, d: Disk, e: Engine)
    requires Preparation.CanClear(d)
    ensures var rest := RunStages(MethodOrder[1..], j0, Cleared(d), StagesWith(e));
      RunStages(MethodOrder, j0, d, StagesWith(e)) == rest.(ran := [Clear] + rest.ran)
  {
    StageClear(j0, d, e);
    RunStagesPass(MethodOrder, j0, d, StagesWith(e), j0, Cleared(d));
  }

  /** With a document that decodes, `load_file` returns 0 and the run goes
      on with the paragraphs loaded. */
  lemma PassLoad(j0: Job, d: Disk, e: Engine)
    requires j0.inputFile in d.documents && d.documents[j0.inputFile].Decoded?
    ensures var paragraphs := Preparation.Paragraphs(d.documents[j0.inputFile].text);
      var j2 := j0.(paragraphs := paragraphs, total := |paragraphs|);
      var rest := RunStages(MethodOrder[2..], j2, d, StagesWith(e));
      RunStages(MethodOrder[1..], j0, d, StagesWith(e)) == rest.(ran := [LoadFile] + rest.ran)
  {
    StageLoad(j0, d, e);
    var paragraphs := Preparation.Paragraphs(d.documents[j0.inputFile].text);
    RunStagesPass(MethodOrder[1..], j0, d, StagesWith(e), j0.(paragraphs := paragraphs, total := |paragraphs|), d);
    assert MethodOrder[1..][1..] == MethodOrder[2..];
  }

  /** On a disk `clear` can rebuild and with a document that decodes, the
      first two stages return 0: the run goes on from the cleared disk with
      the paragraphs loaded. */
  lemma ThroughLoad(j0: Job, d: Disk, e: Engine)
    requires Preparation.CanClear(d)
    requires j0.inputFile in d.documents && d.documents[j0.inputFile].Decoded?
    ensures var paragraphs := Preparation.Paragraphs(d.documents[j0.inputFile].text);
      var j2 := j0.(paragraphs := paragraphs, total := |paragraphs|);
      var rest := RunStages(MethodOrder[2..], j2, Cleared(d), StagesWith(e));
      RunStages(MethodOrder, j0, d, StagesWith(e)) == rest.(ran := [Clear, LoadFile] + rest.ran)
  {
    PassClear(j0, d, e);
    PassLoad(j0, Cleared(d), e);
    var paragraphs := Preparation.Paragraphs(d.documents[j0.inputFile].text);
    var rest := RunStages(MethodOrder[2..], j0.(paragraphs := paragraphs, total := |paragraphs|), Cleared(d), StagesWith(e));
    assert [Clear] + ([LoadFile] + rest.ran) == [Clear, LoadFile] + rest.ran;
  }

  /** A language without a voice makes `generate_audio` raise before any
      slice is written: the exception escapes `start` with `finish` still
      false, on the freshly cleared tree, with `merge_audio` never run. */
  lemma MissingVoice(job: Job, d: Disk, e: Engine, now: int, later: int)
    requires Preparation.CanClear(d)
    requires job.inputFile in d.documents && d.documents[job.inputFile].Decoded?
    requires job.language !in e.voices
    ensures var r := Start(job, d, e, now, later);
      && r.outcome == Escaped && !r.job.finish
      && r.ran == [Clear, LoadFile, GenerateAudio]
      && r.disk == Cleared(d)
  {
    var j0 := job.(finish := false, startTime := Some(now));
    var st := StagesWith(e);
    ThroughLoad(j0, d, e);
    var paragraphs := Preparation.Paragraphs(d.documents[job.inputFile].text);
    var j2 := j0.(paragraphs := paragraphs, total := |paragraphs|);
    var d1 := Cleared(d);
    assert st(GenerateAudio, j2, d1) == Raised(j2, d1);
    assert MethodOrder[2..] == [GenerateAudio, MergeAudio];
    assert RunStages(MethodOrder[2..], j2, d1, st) == Run(Escaped, j2, d1, [GenerateAudio]);
  }
}

=== FILE: preparation.dfy ===
/** The first two stages of a run: `clear`, which rebuilds the output tree,
    and `load_file`, which segments the document into paragraphs. */
module Preparation {
  import opened Wrappers
  import opened Files
  import opened Jobs
  import Text

  /** The status `clear` commits when removing the old tree fails: the
      fixed text naming `<out>/output`, then the error's own text. */
  function CleanError(folder: string, e: OsError): (status: string)
    ensures Text.StartsWith(status, "Error while cleaning output folder \"" + OutputPath(folder) + "\": ")
    ensures Text.EndsWith(status, Describe(e))
    ensures IsErrorText(status)
  {
    FolderError("Error while cleaning output folder \"", OutputPath(folder), Describe(e))
  }

  /** The status `clear` commits when creating the new tree fails: the
      fixed text naming `<out>/output`, then the error's own text. */
  function CreateError(folder: string, e: OsError): (status: string)
    ensures Text.StartsWith(status, "Error while creating output folder \"" + OutputPath(folder) + "\": ")
    ensures Text.EndsWith(status, Describe(e))
    ensures IsErrorText(status)
  {
    FolderError("Error while creating output folder \"", OutputPath(folder), Describe(e))
  }

  /** `f'{lead}{path}": {cause}'` for a lead starting with "Error". */
  function FolderError(lead: string, path: string, cause: string): (status: string)
    requires Text.StartsWith(lead, "Error")
    ensures Text.StartsWith(status, lead + path + "\": ")
    ensures Text.EndsWith(status, cause)
    ensures IsErrorText(status)
  {
    var head := lead + path + "\": ";
    Text.PrefixOfConcat(lead, "Error", path + "\": ");
    assert head == lead + (path + "\": ");
    Text.PrefixOfConcat(head, "Error", cause);
    Text.PrefixOfConcat(head, head, cause);
    Text.EndsWithLast(head, cause);
    head + cause
  }

  /** True iff `clear` gets through on `d`: the output folder exists as a
      folder and neither it nor its `slices` sub-folder is faulty. */
  predicate CanClear(d: Disk)
  {
    OutputDir in d.dirs && OutputDir !in d.files && OutputDir !in d.faults && SlicesDir !in d.faults
  }

  /** `clear`: remove `<out>/output` recursively, then create it and its
      `slices` folder; the first failure is committed through
      `change_status`. When the removal fails, which includes a missing
      output folder as on a first run, no folder is created and the disk is
      left as it was; when a creation fails, the old tree is already gone. */
  function Clear(job: Job, disk: Disk): (r: Step)
    ensures r.Done? && (r.code == 0 || r.code == FailureCode)
    ensures r.code == 0 <==> CanClear(disk)
    ensures r.code == 0 ==> r.job == job
    ensures r.code == 0 ==> r.disk == disk.(dirs := {OutputDir, SlicesDir}, files := map[])
    ensures r.code != 0 ==> r.job == job.(status := r.job.status, finish := true)
    ensures r.code != 0 ==> IsErrorText(r.job.status)
    ensures r.code != 0 ==> r.disk.faults == disk.faults && r.disk.documents == disk.documents
    ensures OutputDir in disk.faults || OutputDir in disk.files || OutputDir !in disk.dirs ==>
      && r.code == FailureCode
      && r.disk == disk
      && Text.StartsWith(r.job.status, "Error while cleaning output folder \"" + OutputPath(job.outputFolder) + "\": ")
    ensures OutputDir in disk.dirs && OutputDir !in disk.files && OutputDir !in disk.faults && r.code != 0 ==>
      && Text.StartsWith(r.job.status, "Error while creating output folder \"" + OutputPath(job.outputFolder) + "\": ")
      && r.disk.files == map[] && SlicesDir !in r.disk.dirs
  {
    match RemoveOutput(disk, OutputPath(job.outputFolder))
    case Err(e) => Fail(job, disk, CleanError(job.outputFolder, e))
    case Ok(emptied) => Rebuild(job, emptied)
  }

  /** The second half of `clear`, on the emptied disk: create
      `<out>/output`, then `<out>/output/slices`. */
  function Rebuild(job: Job, emptied: Disk): (r: Step)
    requires emptied.dirs == {} && emptied.files == map[]
    ensures r.Done? && (r.code == 0 || r.code == FailureCode)
    ensures r.code == 0 <==> OutputDir !in emptied.faults && SlicesDir !in emptied.faults
    ensures r.code == 0 ==> r.job == job && r.disk == emptied.(dirs := {OutputDir, SlicesDir})
    ensures r.code != 0 ==>
      && r.job == job.(status := r.job.status, finish := true)
      && IsErrorText(r.job.status)
      && r.disk.faults == emptied.faults && r.disk.documents == emptied.documents
    ensures r.code != 0 ==>
      && Text.StartsWith(r.job.status, "Error while creating output folder \"" + OutputPath(job.outputFolder) + "\": ")
      && r.disk.files == map[] && SlicesDir !in r.disk.dirs
  {
    var folder := job.outputFolder;
    match MakeDir(emptied, OutputDir, OutputPath(folder))
    case Err(e) => Fail(job, emptied, CreateError(folder, e))
    case Ok(withOutput) =>
      assert withOutput.dirs == {OutputDir} && withOutput.files == map[] && withOutput.faults == emptied.faults;
      match MakeDir(withOutput, SlicesDir, SlicesPath(folder))
      case Err(e) => Fail(job, withOutput, CreateError(folder, e))
      case Ok(prepared) => Done(0, job, prepared)
  }

  /** The paragraphs of a decoded document: its text after newline
      translation, split at every line feed. */
  function Paragraphs(text: string): seq<string>
  {
    Text.Split(Text.UniversalNewlines(text), '\n')
  }

  /** The status `load_file` commits for a missing file; it names the
      file. */
  function NotFoundError(path: string): (status: string)
    ensures IsErrorText(status) && Text.Contains(status, path)
  {
    Text.ContainsMiddle("Error: File '", path, "' not found.");
    ErrorLead("Error: File '", path + "' not found.");
    "Error: File '" + path + "' not found."
  }

  /** The status `load_file` commits for a file that is not UTF-8. */
  function DecodeError(path: string): (status: string)
    ensures IsErrorText(status) && Text.Contains(status, path)
    ensures Text.Contains(status, "utf-8")
  {
    var lead := "Error: Unable to read the file '";
    var tail := "' with " + "utf-8" + " encoding.";
    Text.ContainsMiddle(lead, path, tail);
    Text.ContainsMiddle(lead + path + "' with ", "utf-8", " encoding.");
    assert lead + path + tail == lead + path + "' with " + "utf-8" + " encoding.";
    ErrorLead(lead, path + tail);
    lead + path + tail
  }

  /** The status `load_file` commits for any other read failure: the
      exception's own text after "Error: ". */
  function ReadError(cause: string): (status: string)
    ensures IsErrorText(status) && Text.EndsWith(status, cause)
    ensures Text.StartsWith(status, "Error: ")
  {
    Text.PrefixOfConcat("Error: ", "Error: ", cause);
    ErrorLead("Error: ", cause);
    Text.EndsWithLast("Error: ", cause);
    "Error: " + cause
  }

  /** A text that opens with a lead starting "Error" is an error text. */
  lemma ErrorLead(lead: string, rest: string)
    requires Text.StartsWith(lead, "Error")
    ensures IsErrorText(lead + rest)
  {
    Text.PrefixOfConcat(lead, "Error", rest);
  }

  /** `load_file`: read the document, split it into paragraphs and record
      their number; a missing path, an undecodable file or any other read
      failure is committed through `change_status` with the path or cause,
      leaving the paragraphs as they were. */
  function LoadFile(job: Job, disk: Disk): (r: Step)
    ensures r.Done? && r.disk == disk && (r.code == 0 || r.code == FailureCode)
    ensures r.code == 0 <==> job.inputFile in disk.documents && disk.documents[job.inputFile].Decoded?
    ensures r.code == 0 ==>
      var lines := Text.UniversalNewlines(disk.documents[job.inputFile].text);
      && r.job == job.(paragraphs := r.job.paragraphs, total := r.job.total)
      && r.job.total == |r.job.paragraphs| == Text.Count(lines, '\n') + 1
      && Text.Join(r.job.paragraphs, "\n") == lines
      && (forall i :: 0 <= i < r.job.total ==> '\n' !in r.job.paragraphs[i] && '\r' !in r.job.paragraphs[i])
    ensures r.code != 0 ==> r.job == job.(status := r.job.status, finish := true) && IsErrorText(r.job.status)
    ensures job.inputFile !in disk.documents ==> Text.Contains(r.job.status, job.inputFile)
    ensures job.inputFile in disk.documents && disk.documents[job.inputFile].Undecodable? ==>
      Text.Contains(r.job.status, job.inputFile) && Text.Contains(r.job.status, "utf-8")
    ensures job.inputFile in disk.documents && disk.documents[job.inputFile].Unreadable? ==>
      Text.StartsWith(r.job.status, "Error: ") && Text.EndsWith(r.job.status, disk.documents[job.inputFile].cause)
  {
    var path := job.inputFile;
    if path !in disk.documents then Fail(job, disk, NotFoundError(path))
    else
      match disk.documents[path]
      case Undecodable => Fail(job, disk, DecodeError(path))
      case Unreadable(cause) => Fail(job, disk, ReadError(cause))
      case Decoded(text) =>
        var paragraphs := Paragraphs(text);
        ParagraphFacts(text);
        Done(0, job.(paragraphs := paragraphs, total := |paragraphs|), disk)
  }

  /** The paragraphs of a text number its line feeds plus one, hold no line
      break, and join back to the translated text. */
  lemma {:induction false} ParagraphFacts(text: string)
    ensures var lines := Text.UniversalNewlines(text);
      && |Paragraphs(text)| == Text.Count(lines, '\n') + 1
      && Text.Join(Paragraphs(text), "\n") == lines
      && forall i :: 0 <= i < |Paragraphs(text)| ==> '\n' !in Paragraphs(text)[i] && '\r' !in Paragraphs(text)[i]
  {
    var lines := Text.UniversalNewlines(text);
    Text.SplitCount(lines, '\n');
    Text.JoinSplit(lines, '\n');
    forall i | 0 <= i < |Paragraphs(text)|
      ensures '\r' !in Paragraphs(text)[i]
    {
      CarriageReturnFree(lines, i);
    }
  }

  /** A piece of a text free of carriage returns is free of them too. */
  lemma {:induction false} CarriageReturnFree(s: string, i: nat)
    requires '\r' !in s
    requires i < |Text.Split(s, '\n')|
    ensures '\r' !in Text.Split(s, '\n')[i]
  {
    if |s| > 0 {
      assert '\r' !in s[1..];
      var rest := Text.Split(s[1..], '\n');
      if s[0] == '\n' {
        if i > 0 {
          CarriageReturnFree(s[1..], i - 1);
        }
      } else if i == 0 {
        CarriageReturnFree(s[1..], 0);
      } else {
        CarriageReturnFree(s[1..], i);
      }
    }
  }

  /** An empty document holds exactly one, empty, paragraph. */
  lemma EmptyDocument()
    ensures Paragraphs("") == [""]
  {
  }

  /** A document written with Windows line endings holds the same
      paragraphs as its lines. */
  lemma CrLfDocument(lines: seq<string>)
    requires |lines| >= 1
    requires forall i :: 0 <= i < |lines| ==> '\r' !in lines[i] && '\n' !in lines[i]
    ensures Paragraphs(Text.Join(lines, "\r\n")) == lines
  {
    Text.TranslateCrLf(lines);
    Text.SplitJoin(lines, '\n');
  }

  /** A document whose lines end in lone carriage returns holds the same
      paragraphs as its lines: a carriage return breaks a paragraph as a
      line feed does. */
  lemma CrDocument(lines: seq<string>)
    requires |lines| >= 1
    requires forall i :: 0 <= i < |lines| ==> '\r' !in lines[i] && '\n' !in lines[i]
    ensures Paragraphs(Text.Join(lines, "\r")) == lines
  {
    Text.TranslateCr(lines);
    Text.SplitJoin(lines, '\n');
  }
}

=== FILE: reporting.dfy ===
/** What a polling caller reads while and after a job runs: `progress`,
    the percentage of processed paragraphs, and `summary`, the closing
    message. */
module Reporting {
  import opened Files
  import opened Jobs
  import Sound
  import Pipeline
  import Text

  /** True iff `r` is `n / d` rounded as Python's `round` does: the
      nearest integer, ties going to the even neighbour. */
  predicate IsRounding(n: int, d: int, r: int)
    requires d > 0
  {
    && d * (2 * r - 1) <= 2 * n <= d * (2 * r + 1)
    && (2 * n == d * (2 * r - 1) || 2 * n == d * (2 * r + 1) ==> r % 2 == 0)
  }

  /** Python's `round(n / d)` computed exactly, from the quotient and
      remainder. */
  function RoundHalfEven(n: int, d: int): (r: int)
    requires d > 0
    ensures IsRounding(n, d, r)
  {
    var q := n / d;
    var m := n % d;
    assert n == d * q + m;
    Bounds(d, q);
    if 2 * m < d then q
    else if 2 * m > d then q + 1
    else if q % 2 == 0 then q
    else q + 1
  }

  /** The bounds `IsRounding` compares against, for `q` and `q + 1`, in
      terms of `d * q`. */
  lemma Bounds(d: int, q: int)
    ensures d * (2 * q - 1) == 2 * (d * q) - d && d * (2 * q + 1) == 2 * (d * q) + d
    ensures d * (2 * (q + 1) - 1) == 2 * (d * q) + d && d * (2 * (q + 1) + 1) == 2 * (d * q) + 3 * d
  {
  }

  /** Multiplying by a positive number keeps the order, with a gap of at
      least that number. */
  lemma MulStep(d: int, a: int, b: int)
    requires d > 0 && a < b
    ensures d * a + d <= d * b
  {
    var k := b - a - 1;
    assert d * b == d * a + d * k + d;
    assert d * k >= 0;
  }

  /** Of two roundings of one fraction the larger cannot exceed the smaller
      by two or more. */
  lemma RoundingGap(n: int, d: int, r1: int, r2: int)
    requires d > 0 && IsRounding(n, d, r1) && IsRounding(n, d, r2)
    ensures r2 <= r1 + 1
  {
    if r2 > r1 + 1 {
      MulStep(d, 2 * r1 + 1, 2 * r2 - 1);
    }
  }

  /** The rounding characterisation has exactly one solution. */
  lemma RoundHalfEvenUnique(n: int, d: int, r: int)
    requires d > 0 && IsRounding(n, d, r)
    ensures r == RoundHalfEven(n, d)
  {
    var q := RoundHalfEven(n, d);
    RoundingGap(n, d, r, q);
    RoundingGap(n, d, q, r);
    EvenNeighbours(n, d, r, q);
    EvenNeighbours(n, d, q, r);
  }

  /** Adjacent roundings of one fraction would both be ties, hence both
      even, which adjacent integers are not. */
  lemma EvenNeighbours(n: int, d: int, r1: int, r2: int)
    requires d > 0 && IsRounding(n, d, r1) && IsRounding(n, d, r2)
    ensures r2 != r1 + 1
  {
  }

  /** Rounding is monotone in the numerator. */
  lemma RoundMonotone(n1: int, n2: int, d: int)
    requires d > 0 && n1 <= n2
    ensures RoundHalfEven(n1, d) <= RoundHalfEven(n2, d)
  {
    var r1 := RoundHalfEven(n1, d);
    var r2 := RoundHalfEven(n2, d);
    if r1 > r2 + 1 {
      MulStep(d, 2 * r2 + 1, 2 * r1 - 1);
    }
  }

  /** The numerator of `processed / total * 100`. */
  function Hundredfold(job: Job): int
  {
    100 * job.processed
  }

  /** `progress`: `round(processed / total * 100)`, 0 when `total` is 0,
      and 99 in place of 100 while the job is not finished. */
  function Progress(job: Job): (p: int)
    ensures job.total == 0 ==> p == 0
    ensures job.processed <= job.total ==> 0 <= p <= 100
    ensures p == 100 ==> job.finish
    ensures job.total > 0 && !job.finish && IsRounding(Hundredfold(job), job.total, 100) ==> p == 99
    ensures job.total > 0 && (job.finish || !IsRounding(Hundredfold(job), job.total, 100)) ==>
              IsRounding(Hundredfold(job), job.total, p)
  {
    if job.total == 0 then 0
    else
      var result := RoundHalfEven(Hundredfold(job), job.total);
      RoundBounds(job.processed, job.total);
      RoundsToHundred(Hundredfold(job), job.total);
      if result == 100 && !job.finish then 99 else result
  }

  /** A fraction whose rounding property holds of 100 rounds to 100. */
  lemma RoundsToHundred(n: int, d: int)
    requires d > 0
    ensures IsRounding(n, d, 100) ==> RoundHalfEven(n, d) == 100
  {
    if IsRounding(n, d, 100) {
      RoundHalfEvenUnique(n, d, 100);
    }
  }

  /** A fraction of at most one rounds to a percentage between 0 and 100. */
  lemma RoundBounds(processed: nat, total: nat)
    requires total > 0
    ensures 0 <= RoundHalfEven(100 * processed, total)
    ensures processed <= total ==> RoundHalfEven(100 * processed, total) <= 100
  {
    RoundMonotone(0, 100 * processed, total);
    RoundHalfEvenUnique(0, total, 0);
    if processed <= total {
      RoundMonotone(100 * processed, 100 * total, total);
      RoundHalfEvenUnique(100 * total, total, 100);
    }
  }

  /** Every paragraph processed gives exactly 100 once the job is finished,
      and 99 before. */
  lemma ProgressComplete(job: Job)
    requires job.total > 0 && job.processed == job.total
    ensures Progress(job) == (if job.finish then 100 else 99)
  {
    RoundHalfEvenUnique(100 * job.total, job.total, 100);
  }

  /** Progress never goes backwards: with the same total, more processed
      paragraphs and a flag that stays raised once raised, the percentage
      does not drop. */
  lemma ProgressMonotone(a: Job, b: Job)
    requires a.total == b.total && a.processed <= b.processed
    requires a.finish ==> b.finish
    ensures Progress(a) <= Progress(b)
  {
    if a.total > 0 {
      RoundMonotone(Hundredfold(a), Hundredfold(b), a.total);
    }
  }

  /** Committing a status can only lift the 99 cap; the counters, and so
      the rounded percentage, stay as they were. */
  lemma ChangeStatusProgress(job: Job, status: string)
    ensures Progress(ChangeStatus(job, status).1) >= Progress(job)
    ensures job.total > 0 ==> Progress(ChangeStatus(job, status).1) == RoundHalfEven(Hundredfold(job), job.total)
  {
    ProgressMonotone(job, ChangeStatus(job, status).1);
  }

  /** The text `summary` returns before the job is finished. */
  const PendingSummary := "The " + "generation of the audiobook has not yet been completed."

  /** The first line of the closing message. This constant and
      `PendingSummary` are each written as two literals joined together;
      the text is the same. */
  const CompletedHeading := "Audiobook " + "generation completed!"

  /** The line reporting the elapsed minutes. */
  function ElapsedLine(elapsed: string): string
  {
    "Time elapsed: " + elapsed + " minutes"
  }

  /** The closing message of a finished job, from the artifact path and the
      elapsed minutes already rendered as text. */
  function CompletedSummary(path: string, elapsed: string): (s: string)
    ensures |s| > 0 && s[0] == 'A'
    ensures Text.Contains(s, path)
    ensures Text.Contains(s, ElapsedLine(elapsed))
  {
    var head := CompletedHeading + "\nPath: ";
    var line := ElapsedLine(elapsed);
    Text.ContainsParts(head, path, "\n", line, "\n");
    head + path + "\n" + line + "\n"
  }

  /** `summary`, with `minutes(start, end)` standing for the elapsed
      minutes `round((end - start).total_seconds() / 60, 1)` rendered as
      text: the fixed placeholder until `finish` is raised, then the
      artifact path and the elapsed minutes, "0.0" when either timestamp
      is missing. */
  function Summary(job: Job, minutes: (int, int) -> string): (s: string)
    ensures s == PendingSummary <==> !job.finish
    ensures job.finish ==> Text.Contains(s, ArtifactPath(job.outputFolder))
    ensures job.finish && (job.startTime.None? || job.endTime.None?) ==> Text.Contains(s, ElapsedLine("0.0"))
    ensures job.finish && job.startTime.Some? && job.endTime.Some? ==>
              Text.Contains(s, ElapsedLine(minutes(job.startTime.value, job.endTime.value)))
  {
    if !job.finish then PendingSummary
    else
      var elapsed :=
        if job.startTime.Some? && job.endTime.Some? then minutes(job.startTime.value, job.endTime.value)
        else "0.0";
      var s := CompletedSummary(ArtifactPath(job.outputFolder), elapsed);
      assert PendingSummary[0] == 'T';
      s
  }

  /** What a caller polling after a successful `start` reads: 100 percent,
      and a summary naming the audiobook and the minutes between the two
      clock readings. */
  lemma ReportAfterSuccess(job: Job, d: Disk, e: Sound.Engine, now: int, later: int, minutes: (int, int) -> string)
    requires Pipeline.Start(job, d, e, now, later).outcome == Pipeline.Returned(0)
    ensures var r := Pipeline.Start(job, d, e, now, later);
      && Progress(r.job) == 100
      && Text.Contains(Summary(r.job, minutes), ArtifactPath(job.outputFolder))
      && Text.Contains(Summary(r.job, minutes), ElapsedLine(minutes(now, later)))
  {
    Pipeline.StartSuccess(job, d, e, now, later);
    var r := Pipeline.Start(job, d, e, now, later);
    Text.SplitCount(Text.UniversalNewlines(d.documents[job.inputFile].text), '\n');
    ProgressComplete(r.job);
  }

  /** After `start` returns 1 on a job never run before, the summary is the
      closing message with no elapsed time. */
  lemma ReportAfterFailure(job: Job, d: Disk, e: Sound.Engine, now: int, later: int, minutes: (int, int) -> string)
    requires job.endTime.None?
    requires Pipeline.Start(job, d, e, now, later).outcome == Pipeline.Returned(FailureCode)
    ensures var r := Pipeline.Start(job, d, e, now, later);
      && Summary(r.job, minutes) != PendingSummary
      && Text.Contains(Summary(r.job, minutes), ElapsedLine("0.0"))
  {
    Pipeline.StartOutcome(job, d, e, now, later);
  }

  /** After an exception escapes `start`, `finish` is still false: the
      summary stays the placeholder and the percentage never reaches 100. */
  lemma ReportAfterEscape(job: Job, d: Disk, e: Sound.Engine, now: int, later: int, minutes: (int, int) -> string)
    requires Pipeline.Start(job, d, e, now, later).outcome == Pipeline.Escaped
    ensures var r := Pipeline.Start(job, d, e, now, later);
      && Summary(r.job, minutes) == PendingSummary
      && Progress(r.job) != 100
  {
    Pipeline.StartOutcome(job, d, e, now, later);
  }

  /** A new generator whose first `start` returns 1 reports the closing
      message with no elapsed time. */
  lemma ReportAfterFirstFailure(inputFile: string, outputFolder: string, language: string,
                                d: Disk, e: Sound.Engine, now: int, later: int, minutes: (int, int) -> string)
    requires Pipeline.Start(NewJob(inputFile, outputFolder, language), d, e, now, later).outcome == Pipeline.Returned(FailureCode)
    ensures var r := Pipeline.Start(NewJob(inputFile, outputFolder, language), d, e, now, later);
      && r.job.finish
      && Summary(r.job, minutes) != PendingSummary
      && Text.Contains(Summary(r.job, minutes), ElapsedLine("0.0"))
      && Text.Contains(Summary(r.job, minutes), ArtifactPath(outputFolder))
  {
    Pipeline.StartOutcome(NewJob(inputFile, outputFolder, language), d, e, now, later);
    ReportAfterFailure(NewJob(inputFile, outputFolder, language), d, e, now, later, minutes);
  }
}

=== FILE: sound.dfy ===
/** Audio records and the two audio producers of the synthesis stage: the
    silent file written with the `wave` module and the 16-bit re-encoding
    done with `soundfile`. The text-to-speech engine is an opaque
    collaborator described by `Engine`. */
module Sound {
  import opened Wrappers

  /** The header fields a WAV reader reports: channel count, bytes per
      sample and frames per second. */
  datatype Format = Format(channels: nat, width: nat, rate: nat)

  /** An audio file: its format and its frames in playback order. A frame
      is abstracted to one integer (the sample value, for mono audio). */
  datatype Audio = Audio(format: Format, frames: seq<int>)

  const SilenceChannels: nat := 1
  const SilenceWidth: nat := 2
  const SilenceRate: nat := 44100

  /** The canonical format of a silent file: mono, 16-bit, 44100 Hz. */
  const SilenceFormat := Format(SilenceChannels, SilenceWidth, SilenceRate)

  /** `create_silent_file` for a whole number of seconds: a mono 16-bit
      44100 Hz file of `44100 * duration` zero frames. */
  function SilentFile(duration: nat): (a: Audio)
    ensures a.format == Format(1, 2, 44100)
    ensures |a.frames| == 44100 * duration
    ensures forall k :: 0 <= k < |a.frames| ==> a.frames[k] == 0
  {
    Audio(SilenceFormat, seq(SilenceRate * duration, _ => 0))
  }

  /** `resample_file`: reading the file as floating point and writing it
      back as 16-bit PCM. Channels, rate and frame count are those read
      from the file, the width becomes 2, and each sample is re-quantized
      by the library's `requantize`, a linear scaling under which silence
      stays silence. */
  function Resample(a: Audio, requantize: (nat, int) -> int): (r: Audio)
    ensures r.format == Format(a.format.channels, 2, a.format.rate)
    ensures |r.frames| == |a.frames|
    ensures forall k :: 0 <= k < |a.frames| && a.frames[k] == 0 ==> r.frames[k] == 0
  {
    var frames := seq(|a.frames|, k requires 0 <= k < |a.frames| =>
      if a.frames[k] == 0 then 0 else requantize(a.format.width, a.frames[k]));
    Audio(a.format.(width := 2), frames)
  }

  /** The external collaborators of the synthesis stage.
      `voices` holds the language codes for which `download` and `TTS`
      load a model; `speak(language, text)` is the raw file
      `tts.synthesis` writes, or None when it raises; `requantize` is the
      sample conversion `soundfile` applies when re-encoding to 16 bits. */
  datatype Engine = Engine(
    voices: set<string>,
    speak: (string, string) -> Option<Audio>,
    requantize: (nat, int) -> int)

  /** A silent slice of one second is mono, 16-bit, 44100 Hz and holds
      exactly 44100 zero frames, before and after re-encoding, whatever
      the sample conversion. */
  lemma {:induction false} SilentSecond(requantize: (nat, int) -> int)
    ensures SilentFile(1).frames == seq(44100, _ => 0)
    ensures Resample(SilentFile(1), requantize) == SilentFile(1)
  {
    var a := SilentFile(1);
    assert |a.frames| == 44100;
    var r := Resample(a, requantize);
    assert r.frames == a.frames;
  }
}

=== FILE: synthesis.dfy ===
/** The `generate_audio` stage: one slice per paragraph, in index order,
    silent for an empty paragraph and spoken by the engine otherwise,
    each re-encoded to 16 bits and counted in `processed`. */
module Synthesis {
  import opened Wrappers
  import opened Sound
  import opened Files
  import opened Jobs

  /** The slice a paragraph becomes, or None when the engine raises: a
      re-encoded one-second silence for an empty paragraph, the re-encoded
      speech for any other. */
  function SliceFor(e: Engine, language: string, text: string): (r: Option<Audio>)
    ensures |text| == 0 ==> r == Some(SilentFile(1))
    ensures r.Some? ==> r.value.format.width == 2
    ensures r.Some? <==> Speakable(e, language, text)
    ensures |text| > 0 && e.speak(language, text).Some? ==>
      var raw := e.speak(language, text).value;
      && r.Some?
      && r.value.format == Format(raw.format.channels, 2, raw.format.rate)
      && |r.value.frames| == |raw.frames|
      && (forall k :: 0 <= k < |raw.frames| && raw.frames[k] == 0 ==> r.value.frames[k] == 0)
  {
    if |text| > 0 then
      match e.speak(language, text)
      case None => None
      case Some(raw) => Some(Resample(raw, e.requantize))
    else
      SilentSecond(e.requantize);
      Some(Resample(SilentFile(1), e.requantize))
  }

  /** True iff the engine produces a slice for `text`: it is not asked for
      an empty paragraph. */
  predicate Speakable(e: Engine, language: string, text: string)
  {
    |text| == 0 || e.speak(language, text).Some?
  }

  /** True iff iteration `i` of the loop completes on `d`: the paragraph
      exists, its slice can be produced, and the slice file can be written. */
  predicate StepSucceeds(job: Job, d: Disk, e: Engine, i: nat)
  {
    && i < |job.paragraphs|
    && Speakable(e, job.language, job.paragraphs[i])
    && Writable(d, SliceFile(i))
  }

  /** One loop iteration: write slice `i`, then set `processed` to `i + 1`.
      An index past the paragraphs, an engine failure or a failed write
      raises. */
  function SynthesizeOne(i: nat, job: Job, d: Disk, e: Engine): Step
  {
    if i >= |job.paragraphs| then Raised(job, d)
    else
      match SliceFor(e, job.language, job.paragraphs[i])
      case None => Raised(job, d)
      case Some(slice) =>
        match Write(d, SliceFile(i), slice)
        case None => Raised(job, d)
        case Some(written) => Done(0, job.(processed := i + 1), written)
  }

  /** The state after the first `k` iterations, or the exception of the
      first iteration that raised. */
  function SynthesizeRange(job: Job, d: Disk, e: Engine, k: nat): Step
  {
    if k == 0 then Done(0, job, d)
    else
      match SynthesizeRange(job, d, e, k - 1)
      case Raised(j, d') => Raised(j, d')
      case Done(_, j, d') => SynthesizeOne(k - 1, j, d', e)
  }

  /** `generate_audio`: load the voice for the job's language, then run the
      loop over `range(0, total)`. It never returns anything but 0: every
      failure escapes as an exception. */
  function GenerateAudio(job: Job, d: Disk, e: Engine): (r: Step)
    ensures r.Done? ==> r.code == 0
    ensures job.language !in e.voices ==> r == Raised(job, d)
  {
    if job.language !in e.voices then Raised(job, d)
    else SynthesizeRange(job, d, e, job.total)
  }

  /** True iff the first `k` iterations all complete when started on `d`.
      Writes add files only, so each iteration's write is judged on `d`. */
  predicate Synthesizable(job: Job, d: Disk, e: Engine, k: nat)
  {
    forall i :: 0 <= i < k ==> StepSucceeds(job, d, e, i)
  }

  /** Slice `i` of paragraph `i` when the paragraph exists and the engine
      does not raise on it. */
  function SliceAt(job: Job, e: Engine, i: nat): Option<Audio>
  {
    if i < |job.paragraphs| then SliceFor(e, job.language, job.paragraphs[i]) else None
  }

  /** True iff `files` holds the slices of paragraphs `0 .. k-1`. */
  predicate HoldsSlices(files: map<Node, Audio>, job: Job, e: Engine, k: nat)
  {
    forall i :: 0 <= i < k ==> SliceFile(i) in files && Some(files[SliceFile(i)]) == SliceAt(job, e, i)
  }

  /** True iff `files` agrees with `before` on every node but slices `0 .. k-1`. */
  ghost predicate OthersKept(files: map<Node, Audio>, before: map<Node, Audio>, k: nat)
  {
    forall n: Node :: !(n.SliceFile? && n.index < k) ==>
      (n in files <==> n in before) && (n in before ==> files[n] == before[n])
  }

  /** One iteration completes exactly when it can; it then writes the
      paragraph's slice, counts it, and changes nothing else. */
  lemma {:induction false} SynthesizeOneSpec(i: nat, job: Job, d: Disk, e: Engine)
    ensures SynthesizeOne(i, job, d, e).Done? <==> StepSucceeds(job, d, e, i)
    ensures SynthesizeOne(i, job, d, e).Done? ==>
      SynthesizeOne(i, job, d, e) == Done(0, job.(processed := i + 1), d.(files := d.files[SliceFile(i) := SliceAt(job, e, i).value]))
    ensures SynthesizeOne(i, job, d, e).Raised? ==> SynthesizeOne(i, job, d, e) == Raised(job, d)
  {
  }

  /** The first `k` iterations complete exactly when every one of them can,
      and they then have counted `k` paragraphs. */
  lemma {:induction false} SynthesizeRangeDone(job: Job, d: Disk, e: Engine, k: nat)
    ensures SynthesizeRange(job, d, e, k).Done? <==> Synthesizable(job, d, e, k)
    ensures SynthesizeRange(job, d, e, k).Done? ==>
      && SynthesizeRange(job, d, e, k).code == 0
      && SynthesizeRange(job, d, e, k).job == (if k == 0 then job else job.(processed := k))
  {
    if k > 0 {
      SynthesizeRangeDone(job, d, e, k - 1);
      var prev := SynthesizeRange(job, d, e, k - 1);
      var r := SynthesizeRange(job, d, e, k);
      assert Synthesizable(job, d, e, k) <==> Synthesizable(job, d, e, k - 1) && StepSucceeds(job, d, e, k - 1);
      if prev.Done? {
        assert r == SynthesizeOne(k - 1, prev.job, prev.disk, e);
        SynthesizeOneSpec(k - 1, prev.job, prev.disk, e);
        SynthesizeRangeDisk(job, d, e, k - 1);
        assert prev.job.paragraphs == job.paragraphs && prev.job.language == job.language;
        assert StepSucceeds(prev.job, prev.disk, e, k - 1) == StepSucceeds(job, d, e, k - 1);
      } else {
        assert r == prev;
      }
    }
  }

  /** Completed iterations `0 .. k-1` have written slices `0 .. k-1` and
      left every folder, fault, document and other file as it was. */
  lemma {:induction false} SynthesizeRangeDisk(job: Job, d: Disk, e: Engine, k: nat)
    requires SynthesizeRange(job, d, e, k).Done?
    ensures SynthesizeRange(job, d, e, k).disk == d.(files := SynthesizeRange(job, d, e, k).disk.files)
    ensures HoldsSlices(SynthesizeRange(job, d, e, k).disk.files, job, e, k)
    ensures OthersKept(SynthesizeRange(job, d, e, k).disk.files, d.files, k)
  {
    if k > 0 {
      var prev := SynthesizeRange(job, d, e, k - 1);
      SynthesizeRangeDisk(job, d, e, k - 1);
      SynthesizeRangeKeepsJob(job, d, e, k - 1);
      SynthesizeOneSpec(k - 1, prev.job, prev.disk, e);
      assert SliceAt(prev.job, e, k - 1) == SliceAt(job, e, k - 1);
      ExtendSlices(prev.disk.files, d.files, job, e, k - 1, SliceAt(job, e, k - 1).value);
    }
  }

  /** Writing slice `k` on top of slices `0 .. k-1` gives slices `0 .. k`. */
  lemma {:induction false} ExtendSlices(files: map<Node, Audio>, before: map<Node, Audio>, job: Job, e: Engine, k: nat, slice: Audio)
    requires HoldsSlices(files, job, e, k) && OthersKept(files, before, k)
    requires SliceAt(job, e, k) == Some(slice)
    ensures HoldsSlices(files[SliceFile(k) := slice], job, e, k + 1)
    ensures OthersKept(files[SliceFile(k) := slice], before, k + 1)
  {
  }

  /** Whether it completes or raises, the loop changes nothing of the job
      but `processed`. */
  lemma {:induction false} SynthesizeRangeKeepsJob(job: Job, d: Disk, e: Engine, k: nat)
    ensures SynthesizeRange(job, d, e, k).job == job.(processed := SynthesizeRange(job, d, e, k).job.processed)
  {
    if k > 0 {
      SynthesizeRangeKeepsJob(job, d, e, k - 1);
    }
  }

  /** The loop keeps the paragraphs and the language it speaks them in. */
  lemma KeepsText(job: Job, d: Disk, e: Engine, k: nat)
    ensures SynthesizeRange(job, d, e, k).job.paragraphs == job.paragraphs
    ensures SynthesizeRange(job, d, e, k).job.language == job.language
  {
    SynthesizeRangeKeepsJob(job, d, e, k);
  }

  /** The loop is monotone: each completed prefix of iterations extends the
      one before it, and `processed` never decreases nor passes `total`. */
  lemma {:induction false} ProcessedMonotone(job: Job, d: Disk, e: Engine, k1: nat, k2: nat)
    requires 1 <= k1 <= k2 <= job.total
    requires SynthesizeRange(job, d, e, k2).Done?
    ensures SynthesizeRange(job, d, e, k1).Done?
    ensures SynthesizeRange(job, d, e, k1).job.processed == k1
    ensures SynthesizeRange(job, d, e, k1).job.processed <= SynthesizeRange(job, d, e, k2).job.processed <= job.total
  {
    SynthesizeRangeDone(job, d, e, k1);
    SynthesizeRangeDone(job, d, e, k2);
  }

  /** After a completed `generate_audio`, every paragraph has been counted
      and has its slice, and every slice is 16-bit; an empty paragraph's
      slice is exactly one second of mono 44100 Hz silence. */
  lemma GenerateAudioSpec(job: Job, d: Disk, e: Engine)
    requires job.total == |job.paragraphs|
    ensures var r := GenerateAudio(job, d, e);
      && (r.Done? <==> job.language in e.voices && Synthesizable(job, d, e, job.total))
      && (r.Done? && job.total > 0 ==> r.job == job.(processed := job.total))
      && (r.Done? ==> forall i :: 0 <= i < job.total ==>
            && SliceFile(i) in r.disk.files
            && r.disk.files[SliceFile(i)].format.width == 2
            && (job.paragraphs[i] == "" ==> r.disk.files[SliceFile(i)] == Audio(SilenceFormat, seq(44100, _ => 0))))
  {
    SynthesizeRangeDone(job, d, e, job.total);
    SilentSecond(e.requantize);
    var r := GenerateAudio(job, d, e);
    if r.Done? {
      SynthesizeRangeDisk(job, d, e, job.total);
      forall i | 0 <= i < job.total
        ensures SliceFile(i) in r.disk.files && r.disk.files[SliceFile(i)].format.width == 2
      {
        assert Some(r.disk.files[SliceFile(i)]) == SliceAt(job, e, i);
      }
    }
  }

  /** Two engines that say the same for `text` yield the same slice. */
  lemma SameSpeechSameSlice(e: Engine, speak: (string, string) -> Option<Audio>, language: string, text: string)
    requires text != "" ==> e.speak(language, text) == speak(language, text)
    ensures SliceFor(e, language, text) == SliceFor(e.(speak := speak), language, text)
  {
  }

  /** Only non-empty paragraphs reach the engine: two engines that agree on
      the non-empty paragraphs give the same loop, whatever they say about
      anything else. */
  lemma SpeechOnlyForText(job: Job, d: Disk, e: Engine, speak: (string, string) -> Option<Audio>, k: nat)
    requires forall i :: 0 <= i < k && i < |job.paragraphs| && job.paragraphs[i] != "" ==>
      e.speak(job.language, job.paragraphs[i]) == speak(job.language, job.paragraphs[i])
    ensures SynthesizeRange(job, d, e, k) == SynthesizeRange(job, d, e.(speak := speak), k)
  {
    SpeechAgrees(job, e, speak, k);
    SameSlicesSameRange(job, d, e, e.(speak := speak), k);
  }

  /** True iff `e` and `e'` make the same slices for paragraphs `0 .. k-1`. */
  predicate SlicesAgree(job: Job, e: Engine, e': Engine, k: nat)
  {
    k == 0 || (SlicesAgree(job, e, e', k - 1) && SliceAt(job, e, k - 1) == SliceAt(job, e', k - 1))
  }

  /** Engines that say the same for the non-empty paragraphs make the same
      slices. */
  lemma {:induction false} SpeechAgrees(job: Job, e: Engine, speak: (string, string) -> Option<Audio>, k: nat)
    requires forall i :: 0 <= i < k && i < |job.paragraphs| && job.paragraphs[i] != "" ==>
      e.speak(job.language, job.paragraphs[i]) == speak(job.language, job.paragraphs[i])
    ensures SlicesAgree(job, e, e.(speak := speak), k)
  {
    if k > 0 {
      SpeechAgrees(job, e, speak, k - 1);
      if k - 1 < |job.paragraphs| {
        SameSpeechSameSlice(e, speak, job.language, job.paragraphs[k - 1]);
      }
    }
  }

  /** Two engines that make the same slice for paragraph `i` of `job` take
      the same step on any job with the same paragraphs and language. */
  lemma SameSliceSameStep(i: nat, job: Job, j: Job, d: Disk, e: Engine, e': Engine)
    requires SliceAt(job, e, i) == SliceAt(job, e', i)
    requires j.paragraphs == job.paragraphs && j.language == job.language
    ensures SynthesizeOne(i, j, d, e) == SynthesizeOne(i, j, d, e')
  {
    assert SliceAt(j, e, i) == SliceAt(job, e, i) && SliceAt(j, e', i) == SliceAt(job, e', i);
  }

  /** Two engines that make the same slices for the first `k` paragraphs
      run the first `k` iterations alike. */
  lemma {:induction false} SameSlicesSameRange(job: Job, d: Disk, e: Engine, e': Engine, k: nat)
    requires SlicesAgree(job, e, e', k)
    ensures SynthesizeRange(job, d, e, k) == SynthesizeRange(job, d, e', k)
  {
    if k > 0 {
      SameSlicesSameRange(job, d, e, e', k - 1);
      var prev := SynthesizeRange(job, d, e, k - 1);
      if prev.Done? {
        KeepsText(job, d, e, k - 1);
        SameSliceSameStep(k - 1, job, prev.job, prev.disk, e, e');
      }
    }
  }

  /** The slices of a list of paragraphs the engine can voice, in order. */
  function SliceSeq(e: Engine, language: string, paragraphs: seq<string>): (s: seq<Audio>)
    requires forall i :: 0 <= i < |paragraphs| ==> Speakable(e, language, paragraphs[i])
    ensures |s| == |paragraphs|
    ensures forall i :: 0 <= i < |s| ==> Some(s[i]) == SliceFor(e, language, paragraphs[i])
  {
    seq(|paragraphs|, i requires 0 <= i < |paragraphs| => SliceFor(e, language, paragraphs[i]).value)
  }
}

=== FILE: text.dfy ===
/** Character-level text operations the generator relies on: `str.split`
    with a one-character separator and its inverse `str.join`, the
    universal-newline translation a text-mode `open` applies when reading,
    and `posixpath.join`. */
module Text {

  /** Number of occurrences of `c` in `s`. */
  function Count(s: string, c: char): nat
  {
    if |s| == 0 then 0 else (if s[0] == c then 1 else 0) + Count(s[1..], c)
  }

  /** True iff `t` occurs in `s` as a contiguous piece. */
  predicate Contains(s: string, t: string)
  {
    exists i :: 0 <= i <= |s| && StartsWith(s[i..], t)
  }

  /** True iff `p` is a prefix of `s`. */
  predicate StartsWith(s: string, p: string)
  {
    |p| <= |s| && s[..|p|] == p
  }

  /** True iff `p` is a suffix of `s`. */
  predicate EndsWith(s: string, p: string)
  {
    |p| <= |s| && s[|s| - |p|..] == p
  }

  /** `s.split(sep)`: the pieces between consecutive separators, in order.
      There is always at least one piece and none holds the separator. */
  function Split(s: string, sep: char): (parts: seq<string>)
    ensures |parts| >= 1
    ensures forall i :: 0 <= i < |parts| ==> sep !in parts[i]
  {
    if |s| == 0 then [""]
    else
      var rest := Split(s[1..], sep);
      if s[0] == sep then [""] + rest
      else [[s[0]] + rest[0]] + rest[1..]
  }

  /** `sep.join(parts)`. */
  function Join(parts: seq<string>, sep: string): string
  {
    if |parts| == 0 then ""
    else if |parts| == 1 then parts[0]
    else parts[0] + sep + Join(parts[1..], sep)
  }

  /** Splitting yields one piece more than there are separators. */
  lemma {:induction false} SplitCount(s: string, sep: char)
    ensures |Split(s, sep)| == Count(s, sep) + 1
  {
    if |s| > 0 {
      SplitCount(s[1..], sep);
    }
  }

  /** Joining the pieces with the separator gives back the text. */
  lemma {:induction false} JoinSplit(s: string, sep: char)
    ensures Join(Split(s, sep), [sep]) == s
  {
    if |s| > 0 {
      var rest := Split(s[1..], sep);
      JoinSplit(s[1..], sep);
      if s[0] == sep {
        assert Split(s, sep)[1..] == rest;
      } else if |rest| == 1 {
        assert Join(Split(s, sep), [sep]) == [s[0]] + rest[0];
      } else {
        var parts := Split(s, sep);
        assert parts[1..] == rest[1..];
        calc {
          Join(parts, [sep]);
          ([s[0]] + rest[0]) + [sep] + Join(rest[1..], [sep]);
          [s[0]] + (rest[0] + [sep] + Join(rest[1..], [sep]));
          [s[0]] + Join(rest, [sep]);
          [s[0]] + s[1..];
          s;
        }
      }
    }
  }

  /** A separator-free text is a single piece. */
  lemma {:induction false} SplitWithoutSeparator(s: string, sep: char)
    requires sep !in s
    ensures Split(s, sep) == [s]
  {
    if |s| > 0 {
      assert sep !in s[1..];
      SplitWithoutSeparator(s[1..], sep);
      assert [s[0]] + s[1..] == s;
    }
  }

  /** A separator after a separator-free head starts a new piece. */
  lemma {:induction false} SplitAfterHead(head: string, sep: char, tail: string)
    requires sep !in head
    ensures Split(head + [sep] + tail, sep) == [head] + Split(tail, sep)
  {
    var s := head + [sep] + tail;
    if |head| == 0 {
      assert s[1..] == tail;
    } else {
      assert s[1..] == head[1..] + [sep] + tail;
      assert sep !in head[1..];
      SplitAfterHead(head[1..], sep, tail);
      assert [head[0]] + head[1..] == head;
    }
  }

  /** Conversely, separator-free pieces survive a join followed by a split. */
  lemma {:induction false} SplitJoin(parts: seq<string>, sep: char)
    requires |parts| >= 1
    requires forall i :: 0 <= i < |parts| ==> sep !in parts[i]
    ensures Split(Join(parts, [sep]), sep) == parts
  {
    if |parts| == 1 {
      SplitWithoutSeparator(parts[0], sep);
    } else {
      SplitJoin(parts[1..], sep);
      SplitAfterHead(parts[0], sep, Join(parts[1..], [sep]));
      assert [parts[0]] + parts[1..] == parts;
    }
  }

  /** The translation a text-mode read applies with `newline=None`:
      every "\r\n" and every lone "\r" becomes "\n"; nothing else changes. */
  function UniversalNewlines(s: string): (r: string)
    ensures '\r' !in r
    ensures '\r' !in s ==> r == s
    ensures |r| <= |s|
  {
    if |s| == 0 then ""
    else if s[0] == '\r' then
      if |s| > 1 && s[1] == '\n' then "\n" + UniversalNewlines(s[2..])
      else "\n" + UniversalNewlines(s[1..])
    else [s[0]] + UniversalNewlines(s[1..])
  }

  /** `posixpath.join(a, b)`: an absolute `b` replaces `a`; otherwise a
      slash is inserted unless `a` is empty or already ends in one. */
  function PathJoin(a: string, b: string): (r: string)
    ensures |b| > 0 && b[0] == '/' ==> r == b
    ensures !(|b| > 0 && b[0] == '/') ==> StartsWith(r, a) && EndsWith(r, b)
  {
    if |b| > 0 && b[0] == '/' then b
    else if |a| == 0 || a[|a| - 1] == '/' then a + b
    else a + "/" + b
  }

  /** `posixpath.join` puts a '/' between the parts only when `a` is non-empty
      and does not already end in one; otherwise it concatenates. */
  lemma PathJoinSeparator(a: string, b: string)
    requires !(|b| > 0 && b[0] == '/')
    ensures |a| == 0 || a[|a| - 1] == '/' ==> PathJoin(a, b) == a + b
    ensures |a| > 0 && a[|a| - 1] != '/' ==>
      |PathJoin(a, b)| == |a| + 1 + |b| && PathJoin(a, b)[|a|] == '/'
  {
  }

  /** A text ends with its last piece. */
  lemma EndsWithLast(p: string, q: string)
    ensures EndsWith(p + q, q)
  {
    assert (p + q)[|p|..] == q;
  }

  /** A prefix of a text stays a prefix when the text is extended. */
  lemma PrefixOfConcat(p: string, q: string, rest: string)
    requires StartsWith(p, q)
    ensures StartsWith(p + rest, q)
  {
    assert (p + rest)[..|q|] == p[..|q|];
  }

  /** A piece placed between two texts occurs in the result. */
  lemma ContainsMiddle(a: string, t: string, b: string)
    ensures Contains(a + t + b, t)
  {
    var s := a + t + b;
    assert s[|a|..][..|t|] == t;
  }

  /** Both middle pieces of a five-piece concatenation occur in it. */
  lemma ContainsParts(a: string, t: string, b: string, u: string, c: string)
    ensures Contains(a + t + b + u + c, t)
    ensures Contains(a + t + b + u + c, u)
  {
    assert a + t + b + u + c == a + t + (b + u + c);
    ContainsMiddle(a, t, b + u + c);
    ContainsMiddle(a + t + b, u, c);
  }

  /** Text without a carriage return passes through the translation
      untouched, whatever follows it. */
  lemma {:induction false} TranslatePlain(a: string, rest: string)
    requires '\r' !in a
    ensures UniversalNewlines(a + rest) == a + UniversalNewlines(rest)
  {
    if |a| > 0 {
      assert a[0] in a;
      assert (a + rest)[0] == a[0] && (a + rest)[1..] == a[1..] + rest;
      assert '\r' !in a[1..];
      TranslatePlain(a[1..], rest);
      assert [a[0]] + a[1..] == a;
    } else {
      assert a + rest == rest;
    }
  }

  /** Lines ended Windows-style read back as the same lines joined with
      line feeds. */
  lemma {:induction false} TranslateCrLf(lines: seq<string>)
    requires forall i :: 0 <= i < |lines| ==> '\r' !in lines[i]
    ensures UniversalNewlines(Join(lines, "\r\n")) == Join(lines, "\n")
  {
    if |lines| == 1 {
      TranslatePlain(lines[0], "");
      assert lines[0] + "" == lines[0];
    } else if |lines| > 1 {
      var tail := Join(lines[1..], "\r\n");
      TranslateCrLf(lines[1..]);
      assert Join(lines, "\r\n") == lines[0] + ("\r\n" + tail);
      TranslatePlain(lines[0], "\r\n" + tail);
      assert ("\r\n" + tail)[2..] == tail;
      assert Join(lines, "\n") == lines[0] + ("\n" + Join(lines[1..], "\n"));
    }
  }

  /** Joining pieces free of a character with a separator free of it gives
      a text free of it. */
  lemma {:induction false} JoinFree(parts: seq<string>, sep: string, c: char)
    requires c !in sep
    requires forall i :: 0 <= i < |parts| ==> c !in parts[i]
    ensures c !in Join(parts, sep)
  {
    if |parts| > 1 {
      JoinFree(parts[1..], sep, c);
    }
  }

  /** Lines ended old-Mac-style, with lone carriage returns, read back as
      the same lines joined with line feeds. */
  lemma {:induction false} TranslateCr(lines: seq<string>)
    requires forall i :: 0 <= i < |lines| ==> '\r' !in lines[i] && '\n' !in lines[i]
    ensures UniversalNewlines(Join(lines, "\r")) == Join(lines, "\n")
  {
    if |lines| == 1 {
      TranslatePlain(lines[0], "");
      assert lines[0] + "" == lines[0];
    } else if |lines| > 1 {
      var tail := Join(lines[1..], "\r");
      TranslateCr(lines[1..]);
      JoinFree(lines[1..], "\r", '\n');
      assert Join(lines, "\r") == lines[0] + ("\r" + tail);
      CrAfterLine(lines[0], tail);
      assert Join(lines, "\n") == lines[0] + ("\n" + Join(lines[1..], "\n"));
    }
  }

  /** A line, a carriage return and text without a line feed: the line
      passes through and the carriage return becomes a line feed. */
  lemma CrAfterLine(line: string, tail: string)
    requires '\r' !in line && '\n' !in tail
    ensures UniversalNewlines(line + ("\r" + tail)) == line + ("\n" + UniversalNewlines(tail))
  {
    TranslatePlain(line, "\r" + tail);
    if |tail| > 0 {
      assert tail[0] in tail;
    }
    LoneCr(tail);
  }

  /** A '\r' not followed by '\n' becomes one '\n'. */
  lemma LoneCr(tail: string)
    requires |tail| == 0 || tail[0] != '\n'
    ensures UniversalNewlines("\r" + tail) == "\n" + UniversalNewlines(tail)
  {
    assert ("\r" + tail)[1..] == tail;
  }

}

=== FILE: wrappers.dfy ===
/** Failure-carrying values shared by the other modules. */
module Wrappers {

  /** A value that may be absent. */
  datatype Option<+T> = None | Some(value: T)

  /** Either a value or the error that prevented it. */
  datatype Result<+T, +E> = Ok(value: T) | Err(error: E)
}
